=== FILE: README.md ===
# LP constraint-model generator of `optimisation.py`, in Dafny

`optimisation.py` computes two graph parameters by linear programming: the
fractional clique cover number (`fractional_clique_cover`) and a Shannon-entropy
(polymatroid) bound (`shannon_entropy`). Both functions first build a variable
for every subset of the vertex set, then emit constraint rows, then hand the
model to the pulp solver. This project models the part before the solver: which
keys exist, which rows are emitted, in which order, and when a lookup
`lp_xs[key]` raises `KeyError`. It proves what those rows mean.

Modules, one per file:

- `SortedKeys` (`keys.dfy`): keys as strictly increasing `seq<int>`. It models
  Python's `list.sort()` as an insertion sort, `list(set(S + T))` as `Dedup`, and
  `[v for v in S if v in T]` as `Retain`. It also proves that an ascending list
  is determined by its set of elements.
- `SubsetSpace` (`subsets.dfy`): the key list of `xs`, i.e. the
  `itertools.combinations` of the vertex list for each size 0..n, in that order.
- `Graphs` (`graph.dfy`): a graph as networkx stores it: vertices `0..n-1` and
  one neighbour list per vertex. Cliques are stated directly: every two members
  are adjacent.
- `LinearProgram` (`lp.dfy`): rows `sum coef * X[key]  (==|<=|>=)  rhs`,
  objectives, and evaluation under an assignment `seq<int> -> real`. Also the
  `Result` type whose failure is `KeyError(key)`, and `Collect`, which adds rows
  one after another and stops at the first failed lookup.
- `CliqueCover` (`cover.dfy`): the fractional clique cover model.
- `Entropy` (`entropy.dfy`): the entropy model, row by row. This includes the
  pair loop and the sorted union and intersection keys.
- `EntropyProperties` (`entropy_props.dfy`): facts about the whole entropy
  model. It proves when the model is built, where each row sits, and how many
  rows there are. It also proves which assignments satisfy the rows, in two
  forms. `EntropyAxioms` follows the code: one pair inequality for each pair of
  key positions the pair loop visits, chosen by its `issubset` test.
  `SetEntropyAxioms` states the same over sets alone: h is monotone on nested
  keys and submodular on keys neither of which contains the other, the full
  vertex set excepted in both. `EntropyAxiomsOverSets` proves the two agree,
  because the key order puts every subset before its supersets
  (`SubsetSpace.SubsetComesFirst`).
  The lemmas about a built model assume `NeighbourListsValid(g)`, which by
  `EntropyModelFound` holds exactly when the build raises no KeyError, and
  they conclude that the model is built.
- `Examples` (`examples.dfy`): the path 0 - 1 - 2, and a one-vertex graph with
  a self-loop.

The comments at optimisation.py:91-92 describe a monotonicity row
`X_T - X_S >= 0` for subsets S of T and a submodularity row for the other
pairs. The loops `for x in range(len(xs)-2)` and
`for y in range(x+1, len(xs)-1)` (optimisation.py:94-96) never put the last
key, which is the full vertex set, in a pair. So the rows `X[V] - X[S] >= 0`
are never emitted. The model follows the loops: `Entropy.PairIndicesExact` and
`EntropyProperties.LastKeyInNoPair` state what the code visits.
`EntropyProperties.SkippedPairsMonotone` shows that every pair left out would
have been a monotonicity row `X[V] - X[S] >= 0`.

`create_graph` refuses self-loops and out-of-range endpoints
(optimisation.py:148), but `load` (optimisation.py:175) calls `add_edge` on
whatever the file names. A self-loop from a file puts v in its own neighbour
list. Then the closed-neighbourhood key `N(v) + [v]` repeats v, and the lookup
at optimisation.py:89 raises `KeyError` (`Examples.SelfLoopKeyError`).

An out-of-range endpoint from a file adds a new node, appended to `G.nodes` in
the order `add_edge` meets it. The node list stays ascending only when the new
endpoint sorts after every node already present (`3` then `0,5` gives nodes
0, 1, 2, 5). Otherwise the keys follow the unsorted node order while the
lookups at optimisation.py:89 and 106 use sorted keys, so the program can
raise `KeyError`: `3` then `0,-1` gives nodes 0, 1, 2, -1 and fails on the
key `(-1, 0)`. This model cannot represent either kind of graph, because
`Vertices` is always `0..n-1` (see "## Left out").

`EntropyProperties.EntropyModelFound` proves that the entropy model raises
`KeyError` exactly when some neighbour list breaks `NeighbourListsValid`: it
has a repeat, a self-loop or a vertex outside `0..n-1`. Of these three
neighbour-list cases, only the self-loop can come from the program, because a
networkx neighbour list never repeats a vertex and an outside endpoint becomes
a node. The other two can be written with the `Graph` datatype but not produced
by networkx. The out-of-order node lists above are a further source of
`KeyError` in the program, outside these three cases and outside the model.

## Model

| member | source | states |
|---|---|---|
| SubsetSpace.Space | optimisation.py:9-12 | the dictionary `xs` has 2^n keys |
| SubsetSpace.Combinations | optimisation.py:11 | `itertools.combinations(G.nodes, L)` in itertools order; see `CombinationsCount` for its size and `CombinationsMembers` for its members |
| SubsetSpace.CombinationsCount | optimisation.py:11 | there are Binom(n, k) k-combinations of n vertices |
| SubsetSpace.Levels | optimisation.py:10-11 | the keys of sizes 0..L-1, level by level, as the outer loop adds them; see `LevelsMembers`, `LevelsDistinct` and `LevelsSizeOrdered` |
| SubsetSpace.LevelsCount | optimisation.py:10-11 | the keys of sizes 0..L-1 number Binom(n, 0) + ... + Binom(n, L-1) |
| SubsetSpace.LevelsSizeOrdered | optimisation.py:10-11 | the outer loop adds keys size by size: no key is longer than a key at a later position |
| SubsetSpace.SubsetComesFirst | optimisation.py:9-12 | of two distinct keys whose sets are nested, the smaller comes first, so the pair loop meets a subset as S and its superset as T |
| SubsetSpace.CombinationsMembers | optimisation.py:11 | `combinations(vs, k)` lists exactly the k-element picks of `vs` taken in list order |
| SubsetSpace.SpaceMembers | optimisation.py:9-12 | a sequence is a key exactly when it is a pick (subsequence) of the vertex list, of any size 0..n |
| SubsetSpace.SpaceKeys | optimisation.py:9-12 | for an ascending vertex list, a sequence is a key exactly when it is strictly increasing and all its members are vertices |
| SubsetSpace.SpaceDistinct | optimisation.py:9-12 | no key is produced twice, so the dictionary keeps one key per subset |
| SubsetSpace.SpaceEnds | optimisation.py:9-12 | the first key is the empty tuple and the last key is the whole vertex list |
| SubsetSpace.CountSingletonKeys | optimisation.py:9-12 | exactly n keys have length 1 |
| Graphs.Vertices | optimisation.py:139 | `G.nodes` is 0..n-1 in ascending order: n entries, strictly increasing, and holding exactly the numbers 0 <= x < n |
| SortedKeys.Sort | optimisation.py:87-88 | `list.sort()` returns an ascending permutation of its input |
| SortedKeys.SortCanonical | optimisation.py:87-88 | sorting a repeat-free list gives a strictly increasing list with the same elements |
| SortedKeys.IncreasingUnique | optimisation.py:86-88 | two strictly increasing lists with the same elements are equal, so a sorted list names the key of its set |
| SortedKeys.Dedup | optimisation.py:102 | `list(set(S + T))` has no repeats and holds exactly the elements of S + T |
| SortedKeys.Retain | optimisation.py:103 | the filtered list holds exactly the elements common to S and T, and stays ascending when S is ascending |
| LinearProgram.Collect | optimisation.py:82-89 | adding rows in order succeeds exactly when every lookup succeeds; the rows are then kept in order; otherwise the KeyError of the first failed row is raised |
| LinearProgram.Var | optimisation.py:74 | the lookup `lp_xs[k]`: the variable of k when k is a key, otherwise `KeyError(k)`; see `NormalisationFound` and `Examples.SelfLoopKeyError` |
| LinearProgram.UnitTermsCoeff | optimisation.py:38 | a sum of distinct variables gives coefficient 1 to each listed key and 0 to every other variable |
| CliqueCover.Cliques | optimisation.py:16 | the clique list holds exactly the keys that are cliques, without repeats |
| CliqueCover.Containing | optimisation.py:32-35 | `cliques_containing_v` holds exactly the cliques that contain v |
| CliqueCover.CoverObjective | optimisation.py:19-25 | the objective is minimised and gives coefficient 1 to every subset variable, clique or not |
| CliqueCover.CoverModel | optimisation.py:19-38 | the clique cover problem: see `CoverObjective` for the objective and `CoverRows` for the rows |
| CliqueCover.CoverRow | optimisation.py:31-38 | the row of vertex v, `lpSum` over the cliques containing v `>= 1`; see `CoverRows` and `CoverRowsOnlyCliques` |
| CliqueCover.CoverRows | optimisation.py:31-38 | one row per vertex; the row of v is `>= 1` with coefficient 1 on each clique key containing v and 0 on every other variable |
| CliqueCover.CoverRowsOnlyCliques | optimisation.py:28-38 | every term of every cover row has coefficient 1 on a key that is a clique; non-cliques are never constrained |
| CliqueCover.SingletonCoverFeasible | optimisation.py:31-38 | weight 1 on every singleton and 0 elsewhere satisfies every cover row, with objective n |
| CliqueCover.CoverAtLeastOne | optimisation.py:25-38 | with at least one vertex, every non-negative feasible point has objective at least 1 |
| CliqueCover.CompleteCoverOne | optimisation.py:25-38 | on a complete graph, weight 1 on the whole vertex set alone is feasible with objective 1 |
| CliqueCover.EdgelessCliques | optimisation.py:14-16 | without edges, the cliques are exactly the subsets of size at most 1 |
| CliqueCover.EdgelessCoverAtLeastN | optimisation.py:25-38 | without edges, every non-negative feasible point has objective at least n |
| Entropy.PairsFromMembers | optimisation.py:94-97 | the inner and outer loops from x0 on visit (x, y) exactly when x0 <= x < y <= m-2 |
| Entropy.PairIndicesExact | optimisation.py:94-97 | the pair loop visits (x, y) exactly when 0 <= x < y <= m-2, each once, (m-1)(m-2)/2 pairs in all |
| Entropy.PairsFrom | optimisation.py:94-97 | the pairs the two loops visit from outer index x on; its contract bounds every pair to x <= p.0 < p.1 <= m-2, and `PairsFromMembers` states both directions |
| Entropy.PairIndices | optimisation.py:94-97 | every (x, y) the pair loops visit, in loop order; see `PairIndicesExact` |
| Entropy.UnionKeyIsKey | optimisation.py:102-104 | the sorted union of two keys is strictly increasing, holds exactly S ∪ T, and is a key |
| Entropy.UnionKeyAnyOrder | optimisation.py:102-104 | any repeat-free listing of S ∪ T sorts to the same key, whatever order `set` iterates in |
| Entropy.IntersectionKeyIsKey | optimisation.py:103-105 | the intersection is already ascending, holds exactly S ∩ T, and is a key |
| Entropy.UnionKey | optimisation.py:102-104 | `sorted(list(set(S + T)))`; see `UnionKeyIsKey` and `UnionKeyAnyOrder` |
| Entropy.IntersectionKey | optimisation.py:103-105 | `sorted([val for val in S if val in T])`; see `IntersectionKeyIsKey` |
| Entropy.PairRow | optimisation.py:99-106 | the monotone or submodular row of the pair (S, T); see `PairRowShape` and `EntropyProperties.PairRowMeaning` |
| Entropy.PairResults | optimisation.py:94-106 | the two nested pair loops with their row bodies, one row per visited pair in loop order; see `EntropyProperties.PairRowsInModel` |
| Entropy.PairRowShape | optimisation.py:99-106 | every pair row is found; it is `X[T] - X[S] >= 0` when S ⊆ T and `X[S] + X[T] - X[S∪T] - X[S∩T] >= 0` otherwise |
| Entropy.NeighbourhoodRowFound | optimisation.py:82-89 | the row of v is found exactly when v's neighbour list has no repeat, no self-loop and no foreign vertex |
| Entropy.NeighbourhoodRowKeys | optimisation.py:82-89 | when found, the row is `X[closed] - X[open] == 0`; both keys exist, open holds N(v), closed holds N(v) ∪ {v}, and v is not in open |
| Entropy.NeighbourhoodRow | optimisation.py:82-89 | the row `X[N(v) + v] - X[N(v)] == 0` of vertex v, or the KeyError of its first missing key; see `NeighbourhoodRowFound`, `NeighbourhoodRowKeys` and `EntropyProperties.NeighbourRowMeaning` |
| Entropy.NeighbourhoodResults | optimisation.py:82-89 | the `for vertex in G.nodes` loop: one neighbourhood row (or KeyError) per vertex, in vertex order; see `EntropyProperties.NeighbourhoodRowInModel` |
| Entropy.NormalisationRow | optimisation.py:74 | the row `X[()] == 0`; see `EntropyProperties.NormalisationFound` and `EntropyProperties.NormalisationOnce` |
| Entropy.SingletonRows | optimisation.py:77-79 | one `<= 1` row per length-1 key, in key order; see `EntropyProperties.SingletonRowsMembers`, `SingletonBoundsExact` and `SingletonRowsMeaning` |
| Entropy.SingletonBound | optimisation.py:79 | the row `X[item] <= 1` for one length-1 key; see `EntropyProperties.SingletonRowsMembers` and `SingletonBoundsExact` |
| Entropy.EntropyModel | optimisation.py:56-106 | the entropy problem, or the first KeyError of its build; see `EntropyProperties.EntropyModelFound`, `Layout` and `EntropyFeasibleIff` |
| EntropyProperties.EntropyModelFound | optimisation.py:56-106 | the model is built without KeyError exactly when every neighbour list is valid; in particular for every simple graph |
| EntropyProperties.EntropyObjective | optimisation.py:64-70 | the objective maximises the variable of the last key, which is the whole vertex set |
| EntropyProperties.NormalisationOnce | optimisation.py:74 | the first row is `X[()] == 0`, and no later row is an equation on a single term |
| EntropyProperties.SingletonBoundsExact | optimisation.py:77-79 | a `<= 1` row exists for a key exactly when it has length 1; every `<=` row is such a bound; there are exactly n of them |
| EntropyProperties.NeighbourhoodRowInModel | optimisation.py:82-89 | row 1 + n + v is the neighbourhood row of v over two existing keys that differ by exactly v |
| EntropyProperties.PairRowsInModel | optimisation.py:94-106 | after the neighbourhood rows come the pair rows, one per visited pair, in loop order, and nothing else |
| EntropyProperties.RowCount | optimisation.py:74-106 | the model has 1 + n + n + (m-1)(m-2)/2 rows for m = 2^n |
| EntropyProperties.LastKeyInNoPair | optimisation.py:94-97 | the full vertex set is never S or T of a pair |
| EntropyProperties.SkippedPairsMonotone | optimisation.py:94-99 | every key lies inside the last key, so each skipped pair would have been a monotonicity pair |
| EntropyProperties.ZeroFeasible | optimisation.py:74-106 | the all-zero assignment satisfies every row, so the model is always feasible |
| EntropyProperties.SingletonRowsMeaning | optimisation.py:77-79 | the singleton rows hold exactly when every length-1 key has value at most 1 |
| EntropyProperties.NeighbourRowMeaning | optimisation.py:82-89 | the row of v holds exactly when h(A) == h(B) for all keys A holding N(v) ∪ {v} and B holding N(v) |
| EntropyProperties.PairRowMeaning | optimisation.py:99-106 | the row of pair (x, y) holds exactly when h(S) <= h(T) for S ⊆ T, and otherwise h(S) + h(T) >= h(U) + h(I) for all keys U holding S ∪ T and I holding S ∩ T |
| EntropyProperties.EntropyFeasibleIff | optimisation.py:74-106 | an assignment satisfies the built model exactly when it satisfies `EntropyAxioms`: h(()) == 0, singleton bounds, the neighbourhood equalities, and the pair inequality of each position pair the loop visits |
| EntropyProperties.EntropyAxiomsOverSets | optimisation.py:91-106 | the pair inequalities over the visited positions hold exactly when h is monotone on nested keys and submodular on non-nested keys, the full vertex set excepted |
| EntropyProperties.EntropyFeasibleIffSets | optimisation.py:74-106 | an assignment satisfies the built model exactly when h(()) == 0, every singleton is at most 1, the neighbourhood equalities hold, and h is monotone and submodular over sets other than the full vertex set |
| Examples.PathMiddleRow | optimisation.py:82-89 | on the path 0 - 1 - 2, the row of vertex 1 is `X[(0,1,2)] - X[(0,2)] == 0` |
| Examples.PathModelBuilt | optimisation.py:56-106 | the path's model is built and has 28 rows |
| Examples.SelfLoopKeyError | optimisation.py:82-89 | a vertex listed as its own neighbour makes the build stop with `KeyError((0, 0))` |

## Left out

- The solver: `prob.solve()`, `LpStatus`, `varValue` and the returned values (optimisation.py:41-53, 108-118). The model covers the rows handed to the solver, not the optimum. `CliqueCover.CoverAtLeastOne`, `CompleteCoverOne` and `EdgelessCoverAtLeastN` bound the cover optimum only on those graph classes.
- Variable bounds: `LpVariable.dicts(..., lowBound=0)` (optimisation.py:22, 67) is not a row. Lemmas that need it take `NonNegative(h)` as a hypothesis. `EntropyProperties.EntropyFeasibleIff` describes the rows only, without the bounds.
- pulp plumbing: problem and variable names and the `LpVariable`/`lpSum` objects. A row is kept as its list of terms. `Coeff` gives the combined coefficient where pulp would merge like terms.
- `Fraction.from_float(...).limit_denominator(100)` (optimisation.py:50, 115): floating-point output formatting.
- `nx.enumerate_all_cliques` (optimisation.py:16): the cliques are the keys passing the clique predicate, in key order. The cover row is a sum, so the order of its terms does not matter. The empty key passes the predicate too, but contains no vertex, so no row changes.
- `G.neighbors` (optimisation.py:83-84): the neighbour list of v in the graph datatype, in insertion order.
- The iteration order of `set(S + T)` (optimisation.py:102): modelled as `Dedup`, one fixed repeat-free order. `Entropy.UnionKeyAnyOrder` shows the sorted result is the same for every order.
- `calculate`, `create_graph`, `load`, `save` and `main` (optimisation.py:121-247): console and file I/O. Graphs are given directly as neighbour lists over vertices `0..n-1`. A `load` file naming a node outside `0..n-1` appends it to the networkx node list; this model cannot represent such a graph. When the new node does not sort after every earlier node, the node list is no longer ascending, and the sorted lookups at optimisation.py:89 and 106 can raise `KeyError` in the program where the model has no counterpart.

=== FILE: cover.dfy ===
/** The fractional clique cover LP (optimisation.py:7-38): minimise the sum of
    all subset variables subject to, for each vertex, a weight of at least 1 on
    the cliques that contain it. Variables of non-clique subsets are never
    constrained; they appear only in the objective. */
module CliqueCover {
  import opened SortedKeys
  import opened SubsetSpace
  import opened Graphs
  import opened LinearProgram

  function CliqueTest(g: Graph): seq<int> -> bool {
    c => IsClique(g, c)
  }

  function ContainsTest(v: int): seq<int> -> bool {
    c => v in c
  }

  /** `K = list(nx.enumerate_all_cliques(G))`, drawn from the key list so that
      each clique is in the sorted form its variable is stored under. */
  function Cliques(g: Graph, keys: seq<seq<int>>): (K: seq<seq<int>>)
    ensures forall c :: c in K <==> c in keys && IsClique(g, c)
    ensures Distinct(keys) ==> Distinct(K)
  {
    var p := CliqueTest(g);
    assert forall c :: c in Filter(keys, p) <==> c in keys && IsClique(g, c) by {
      forall c ensures c in Filter(keys, p) <==> c in keys && IsClique(g, c) {
        FilterMember(keys, p, c);
      }
    }
    Filter(keys, p)
  }

  /** `cliques_containing_v` */
  function Containing(K: seq<seq<int>>, v: int): (C: seq<seq<int>>)
    ensures forall c :: c in C <==> c in K && v in c
    ensures Distinct(K) ==> Distinct(C)
  {
    var p := ContainsTest(v);
    assert forall c :: c in Filter(K, p) <==> c in K && v in c by {
      forall c ensures c in Filter(K, p) <==> c in K && v in c {
        FilterMember(K, p, c);
      }
    }
    Filter(K, p)
  }

  /** `lpSum(lp_xs[tuple(x)] for x in cliques_containing_v) >= 1` */
  function CoverRow(K: seq<seq<int>>, v: int): Row {
    Row(UnitTerms(Containing(K, v)), Ge, 1)
  }

  /** The model handed to the solver: objective `lpSum(lp_xs)` to minimise and
      one covering row per vertex, in vertex order. */
  function CoverModel(g: Graph): Model {
    var keys := Space(Vertices(g));
    var K := Cliques(g, keys);
    Model(Minimize, UnitTerms(keys), seq(|g.adj|, v => CoverRow(K, v)))
  }

  /** Weight 1 on every singleton, 0 elsewhere. */
  function SingletonWeights(): Assignment {
    x => if IsSingletonKey(x) then 1.0 else 0.0
  }

  ghost predicate NonNegative(h: Assignment) {
    forall k :: h(k) >= 0.0
  }

  // ----- the rows and the objective -----

  /** Exactly one row per vertex; the row of v is `>= 1` and gives coefficient
      1 to each clique key containing v and 0 to every other variable. */
  lemma CoverRows(g: Graph, v: int)
    requires 0 <= v < |g.adj|
    ensures |CoverModel(g).rows| == |g.adj|
    ensures CoverModel(g).rows[v].rel == Ge && CoverModel(g).rows[v].rhs == 1
    ensures forall k ::
              Coeff(CoverModel(g).rows[v].terms, k) ==
              if k in Space(Vertices(g)) && IsClique(g, k) && v in k then 1 else 0
  {
    var keys := Space(Vertices(g));
    SpaceDistinct(Vertices(g));
    var C := Containing(Cliques(g, keys), v);
    forall k ensures Coeff(UnitTerms(C), k) == if k in keys && IsClique(g, k) && v in k then 1 else 0 {
      UnitTermsCoeff(C, k);
    }
  }

  /** No non-clique subset appears in any covering row. */
  lemma CoverRowsOnlyCliques(g: Graph)
    ensures forall r, t | r in CoverModel(g).rows && t in r.terms ::
      t.coef == 1 && t.key in Space(Vertices(g)) && IsClique(g, t.key)
  {
    var keys := Space(Vertices(g));
    var K := Cliques(g, keys);
    var rows := CoverModel(g).rows;
    forall r, t | r in rows && t in r.terms
      ensures t.coef == 1 && t.key in keys && IsClique(g, t.key)
    {
      var v :| 0 <= v < |rows| && rows[v] == r;
      var C := Containing(K, v);
      var i :| 0 <= i < |UnitTerms(C)| && UnitTerms(C)[i] == t;
      assert C[i] in C;
    }
  }

  /** The objective is minimised and gives every subset variable, clique or
      not, coefficient 1. */
  lemma CoverObjective(g: Graph)
    ensures CoverModel(g).sense == Minimize
    ensures forall k :: Coeff(CoverModel(g).objective, k) == if k in Space(Vertices(g)) then 1 else 0
  {
    SpaceDistinct(Vertices(g));
    forall k ensures Coeff(CoverModel(g).objective, k) == if k in Space(Vertices(g)) then 1 else 0 {
      UnitTermsCoeff(Space(Vertices(g)), k);
    }
  }

  // ----- feasible points and bounds -----

  lemma SingletonIsKey(g: Graph, v: int)
    requires 0 <= v < |g.adj|
    ensures [v] in Space(Vertices(g))
    ensures IsClique(g, [v])
  {
    SpaceKeys(Vertices(g), [v]);
  }

  /** The covering row of v is at least the weight on the singleton {v}. */
  lemma CoverRowAtLeastSingleton(g: Graph, v: int, h: Assignment)
    requires 0 <= v < |g.adj|
    requires NonNegative(h)
    ensures Value(CoverModel(g).rows[v].terms, h) >= h([v])
  {
    var K := Cliques(g, Space(Vertices(g)));
    var C := Containing(K, v);
    SingletonIsKey(g, v);
    assert [v] in C;
    var i :| 0 <= i < |C| && C[i] == [v];
    assert UnitTerms(C)[i] == Term(1, [v]);
    ValueAtLeastTerm(UnitTerms(C), h, i);
  }

  /** Weight 1 on every singleton satisfies every covering row, and its
      objective value is the number of vertices. */
  lemma SingletonCoverFeasible(g: Graph)
    ensures Feasible(CoverModel(g).rows, SingletonWeights())
    ensures Value(CoverModel(g).objective, SingletonWeights()) == |g.adj| as real
  {
    var rows := CoverModel(g).rows;
    forall r | r in rows ensures Holds(r, SingletonWeights()) {
      var v :| 0 <= v < |rows| && rows[v] == r;
      CoverRowAtLeastSingleton(g, v, SingletonWeights());
    }
    UnitTermsCount(Space(Vertices(g)), IsSingletonKey, SingletonWeights());
    CountSingletonKeys(Vertices(g));
  }

  /** Any feasible point of a graph with a vertex has objective at least 1:
      the objective sums every variable, including those in the first row. */
  lemma CoverAtLeastOne(g: Graph, h: Assignment)
    requires |g.adj| >= 1
    requires NonNegative(h)
    requires Feasible(CoverModel(g).rows, h)
    ensures Value(CoverModel(g).objective, h) >= 1.0
  {
    var keys := Space(Vertices(g));
    var K := Cliques(g, keys);
    var rows := CoverModel(g).rows;
    assert rows[0] in rows;
    UnitTermsFilterValue(K, ContainsTest(0), h);
    UnitTermsFilterValue(keys, CliqueTest(g), h);
  }

  /** On a complete graph the whole vertex set is one clique: weight 1 on it
      alone is feasible with objective 1, so the optimum is 1. */
  lemma CompleteCoverOne(g: Graph)
    requires Complete(g)
    ensures Feasible(CoverModel(g).rows, Indicator(Vertices(g)))
    ensures Value(CoverModel(g).objective, Indicator(Vertices(g))) == 1.0
  {
    var vs := Vertices(g);
    var rows := CoverModel(g).rows;
    assert IsClique(g, vs);
    SpaceEnds(vs);
    assert vs in Space(vs);
    forall r | r in rows ensures Holds(r, Indicator(vs)) {
      var v :| 0 <= v < |rows| && rows[v] == r;
      CoverRows(g, v);
      ValueOfIndicator(r.terms, vs);
    }
    CoverObjective(g);
    ValueOfIndicator(CoverModel(g).objective, vs);
  }

  lemma EdgelessCliques(g: Graph, c: seq<int>)
    requires Edgeless(g)
    ensures IsClique(g, c) <==> |c| <= 1
  {
    if |c| >= 2 {
      assert !Adjacent(g, c[0], c[1]);
    }
  }

  /** Without edges, the covering row of v weighs the singleton {v} alone. */
  lemma EdgelessCoverRow(g: Graph, v: int, h: Assignment)
    requires Edgeless(g)
    requires 0 <= v < |g.adj|
    ensures Value(CoverModel(g).rows[v].terms, h) == h([v])
  {
    var K := Cliques(g, Space(Vertices(g)));
    SpaceDistinct(Vertices(g));
    var C := Containing(K, v);
    SingletonIsKey(g, v);
    forall t | t in UnitTerms(C) ensures t.key == [v] {
      var i :| 0 <= i < |C| && UnitTerms(C)[i] == t;
      assert C[i] in C;
      EdgelessCliques(g, C[i]);
    }
    ValueOneKey(UnitTerms(C), [v], h);
    UnitTermsCoeff(C, [v]);
  }

  /** On a graph without edges every feasible point has objective at least the
      number of vertices. */
  lemma EdgelessCoverAtLeastN(g: Graph, h: Assignment)
    requires Edgeless(g)
    requires NonNegative(h)
    requires Feasible(CoverModel(g).rows, h)
    ensures Value(CoverModel(g).objective, h) >= |g.adj| as real
  {
    var vs := Vertices(g);
    var keys := Space(vs);
    var rows := CoverModel(g).rows;
    var S := Filter(keys, IsSingletonKey);
    forall k | k in S ensures h(k) >= 1.0 {
      FilterMember(keys, IsSingletonKey, k);
      SpaceKeys(vs, k);
      var v := k[0];
      assert k == [v];
      assert v in Elems(vs);
      EdgelessCoverRow(g, v, h);
      assert rows[v] in rows;
    }
    UnitTermsAtLeastCount(S, h);
    UnitTermsFilterValue(keys, IsSingletonKey, h);
    CountSingletonKeys(vs);
  }
}

=== FILE: entropy.dfy ===
/** The Shannon-entropy (polymatroid) LP (optimisation.py:56-106): maximise the
    variable of the full vertex set subject to normalisation, a bound of 1 on
    each singleton, one neighbourhood equation per vertex, and one
    monotonicity or submodularity row per pair of keys. Derived keys are
    sorted before they are looked up; a failed lookup is a KeyError. */
module Entropy {
  import opened SortedKeys
  import opened SubsetSpace
  import opened Graphs
  import opened LinearProgram

  /** `prob += lp_xs[tuple()] == 0` */
  function NormalisationRow(keys: seq<seq<int>>): Result<Row> {
    var e :- Var(keys, []);
    Ok(Row([Term(1, e)], Eq, 0))
  }

  /** `prob += lp_xs[item] <= 1` */
  function SingletonBound(k: seq<int>): Row {
    Row([Term(1, k)], Le, 1)
  }

  /** One bound for each key of length 1, in key order. */
  function SingletonRows(keys: seq<seq<int>>): seq<Row> {
    var S := Filter(keys, IsSingletonKey);
    seq(|S|, i requires 0 <= i < |S| => SingletonBound(S[i]))
  }

  /** `X[sorted(N(v) + [v])] - X[sorted(N(v))] == 0`, the N(v)∪{v} key looked up first. */
  function NeighbourhoodRow(g: Graph, keys: seq<seq<int>>, v: int): Result<Row>
    requires 0 <= v < |g.adj|
  {
    var nv := g.adj[v];
    var closed :- Var(keys, Sort(nv + [v]));
    var open :- Var(keys, Sort(nv));
    Ok(Row([Term(1, closed), Term(-1, open)], Eq, 0))
  }

  function NeighbourhoodResults(g: Graph, keys: seq<seq<int>>): seq<Result<Row>> {
    seq(|g.adj|, v requires 0 <= v < |g.adj| => NeighbourhoodRow(g, keys, v))
  }

  /** `sorted(list(set(S + T)))` */
  function UnionKey(s: seq<int>, t: seq<int>): seq<int> {
    Sort(Dedup(s + t))
  }

  /** `sorted([val for val in S if val in T])` */
  function IntersectionKey(s: seq<int>, t: seq<int>): seq<int> {
    Sort(Retain(s, t))
  }

  /** The row for the pair of keys at positions x < y: monotonicity
      `X[T] - X[S] >= 0` when S ⊆ T, submodularity
      `X[S] + X[T] - X[S∪T] - X[S∩T] >= 0` otherwise. */
  function PairRow(keys: seq<seq<int>>, x: int, y: int): Result<Row>
    requires 0 <= x < y < |keys|
  {
    var s := keys[x];
    var t := keys[y];
    if Elems(s) <= Elems(t) then
      Ok(Row([Term(1, t), Term(-1, s)], Ge, 0))
    else
      var u :- Var(keys, UnionKey(s, t));
      var i :- Var(keys, IntersectionKey(s, t));
      Ok(Row([Term(1, s), Term(1, t), Term(-1, u), Term(-1, i)], Ge, 0))
  }

  /** The positions visited by `for x in range(m-2): for y in range(x+1, m-1)`,
      from outer index `x` on. */
  function PairsFrom(m: int, x: nat): (ps: seq<(int, int)>)
    ensures forall p :: p in ps ==> x <= p.0 < p.1 <= m - 2
    decreases m - x
  {
    if x >= m - 2 then []
    else
      var row := seq(m - 2 - x, j requires 0 <= j < m - 2 - x => (x, x + 1 + j));
      assert forall p :: p in row ==> x <= p.0 < p.1 <= m - 2;
      row + PairsFrom(m, x + 1)
  }

  function PairIndices(m: int): seq<(int, int)> {
    PairsFrom(m, 0)
  }

  function PairResults(keys: seq<seq<int>>): seq<Result<Row>> {
    var ps := PairIndices(|keys|);
    seq(|ps|, i requires 0 <= i < |ps| =>
      assert ps[i] in ps;
      PairRow(keys, ps[i].0, ps[i].1))
  }

  /** The whole model, or the KeyError of the first row whose key is missing.
      Rows: normalisation, singleton bounds, neighbourhoods, pairs. */
  function EntropyModel(g: Graph): Result<Model> {
    var keys := Space(Vertices(g));
    var norm :- NormalisationRow(keys);
    var neighbourhoods :- Collect(NeighbourhoodResults(g, keys));
    var pairs :- Collect(PairResults(keys));
    Ok(Model(Maximize, [Term(1, keys[|keys| - 1])],
             [norm] + SingletonRows(keys) + neighbourhoods + pairs))
  }

  // ----- the pair loop -----

  /** The pair loop visits (x, y) exactly when x < y and y is not the last
      position; since y > x, x is not among the last two. */
  lemma {:induction false} PairsFromMembers(m: int, x0: nat, x: int, y: int)
    ensures (x, y) in PairsFrom(m, x0) <==> x0 <= x < y <= m - 2
    decreases m - x0
  {
    if x0 < m - 2 {
      PairsFromMembers(m, x0 + 1, x, y);
      var row := seq(m - 2 - x0, j requires 0 <= j < m - 2 - x0 => (x0, x0 + 1 + j));
      if x == x0 && x0 < y <= m - 2 {
        assert row[y - x0 - 1] == (x, y);
      }
    }
  }

  lemma {:induction false} PairsFromDistinct(m: int, x0: nat)
    ensures Distinct(PairsFrom(m, x0))
    decreases m - x0
  {
    if x0 < m - 2 {
      PairsFromDistinct(m, x0 + 1);
      var row := seq(m - 2 - x0, j requires 0 <= j < m - 2 - x0 => (x0, x0 + 1 + j));
      forall p | p in row ensures p !in PairsFrom(m, x0 + 1) {
      }
      DistinctConcat(row, PairsFrom(m, x0 + 1));
    }
  }

  lemma {:induction false} PairsFromCount(m: int, x0: nat)
    ensures x0 <= m - 2 ==> 2 * |PairsFrom(m, x0)| == (m - 2 - x0) * (m - 1 - x0)
    decreases m - x0
  {
    if x0 < m - 2 {
      PairsFromCount(m, x0 + 1);
      var d := m - 2 - x0;
      assert (d - 1) * d + 2 * d == d * (d + 1);
    }
  }

  /** Every pair 0 <= x < y <= m-2 is visited exactly once, and there are
      (m-1)(m-2)/2 of them. */
  lemma PairIndicesExact(m: int)
    requires m >= 1
    ensures forall x, y :: (x, y) in PairIndices(m) <==> 0 <= x < y <= m - 2
    ensures Distinct(PairIndices(m))
    ensures 2 * |PairIndices(m)| == (m - 1) * (m - 2)
  {
    forall x, y ensures (x, y) in PairIndices(m) <==> 0 <= x < y <= m - 2 {
      PairsFromMembers(m, 0, x, y);
    }
    PairsFromDistinct(m, 0);
    PairCount(m);
  }

  lemma PairCount(m: int)
    requires m >= 1
    ensures 2 * |PairIndices(m)| == (m - 1) * (m - 2)
  {
    PairsFromCount(m, 0);
  }

  // ----- derived keys -----

  /** The sorted union of two keys is a key: ascending, holding exactly S ∪ T. */
  lemma UnionKeyIsKey(vs: seq<int>, s: seq<int>, t: seq<int>)
    requires Increasing(vs)
    requires s in Space(vs) && t in Space(vs)
    ensures Increasing(UnionKey(s, t))
    ensures Elems(UnionKey(s, t)) == Elems(s) + Elems(t)
    ensures UnionKey(s, t) in Space(vs)
  {
    SpaceKeys(vs, s);
    SpaceKeys(vs, t);
    SortCanonical(Dedup(s + t));
    assert Elems(s + t) == Elems(s) + Elems(t);
    SpaceKeys(vs, UnionKey(s, t));
  }

  /** `set` iteration order does not matter: any repeat-free listing of S ∪ T
      sorts to the same key. */
  lemma UnionKeyAnyOrder(s: seq<int>, t: seq<int>, l: seq<int>)
    requires NoDup(l) && Elems(l) == Elems(s) + Elems(t)
    ensures Sort(l) == UnionKey(s, t)
  {
    assert Elems(s + t) == Elems(s) + Elems(t);
    SortBySet(l, Dedup(s + t));
  }

  /** The intersection, filtered in the order of S, is already ascending; the
      sort keeps it, and it is a key holding exactly S ∩ T. */
  lemma IntersectionKeyIsKey(vs: seq<int>, s: seq<int>, t: seq<int>)
    requires Increasing(vs)
    requires s in Space(vs) && t in Space(vs)
    ensures IntersectionKey(s, t) == Retain(s, t)
    ensures Increasing(IntersectionKey(s, t))
    ensures Elems(IntersectionKey(s, t)) == Elems(s) * Elems(t)
    ensures IntersectionKey(s, t) in Space(vs)
  {
    SpaceKeys(vs, s);
    SortIncreasing(Retain(s, t));
    SpaceKeys(vs, Retain(s, t));
  }

  /** The row of each pair is found (no KeyError) and is exactly one of the two
      kinds: monotonicity when S ⊆ T, submodularity over the union and
      intersection keys otherwise. */
  lemma PairRowShape(vs: seq<int>, x: int, y: int)
    requires Increasing(vs)
    requires 0 <= x < y < |Space(vs)|
    ensures PairRow(Space(vs), x, y).Ok?
    ensures var keys := Space(vs);
            var s := keys[x];
            var t := keys[y];
            PairRow(keys, x, y).value ==
              if Elems(s) <= Elems(t) then Row([Term(1, t), Term(-1, s)], Ge, 0)
              else Row([Term(1, s), Term(1, t), Term(-1, UnionKey(s, t)), Term(-1, IntersectionKey(s, t))], Ge, 0)
  {
    var keys := Space(vs);
    UnionKeyIsKey(vs, keys[x], keys[y]);
    IntersectionKeyIsKey(vs, keys[x], keys[y]);
  }

  // ----- the neighbourhood rows -----

  lemma NoDupAppend(s: seq<int>, v: int)
    ensures NoDup(s + [v]) <==> NoDup(s) && v !in s
  {
    assert multiset(s + [v]) == multiset(s) + multiset{v};
    if NoDup(s + [v]) {
      forall x | x in s ensures multiset(s)[x] <= 1 {
        assert x in s + [v];
      }
      assert v in s + [v];
    }
  }

  /** Sorting a repeat-free list of vertices gives the key of its set. */
  lemma SortedIsKey(vs: seq<int>, l: seq<int>)
    requires Increasing(vs)
    requires NoDup(l) && Elems(l) <= Elems(vs)
    ensures Sort(l) in Space(vs)
    ensures Increasing(Sort(l)) && Elems(Sort(l)) == Elems(l)
  {
    SortCanonical(l);
    SpaceKeys(vs, Sort(l));
  }

  lemma ValidNeighboursFound(g: Graph, v: int)
    requires 0 <= v < |g.adj|
    requires NoDup(g.adj[v]) && v !in g.adj[v] && forall w | w in g.adj[v] :: IsVertex(g, w)
    ensures Sort(g.adj[v] + [v]) in Space(Vertices(g))
    ensures Sort(g.adj[v]) in Space(Vertices(g))
  {
    var vs := Vertices(g);
    var nv := g.adj[v];
    NoDupAppend(nv, v);
    assert Elems(nv + [v]) == Elems(nv) + {v};
    SortedIsKey(vs, nv + [v]);
    SortedIsKey(vs, nv);
  }

  lemma FoundNeighboursValid(g: Graph, v: int)
    requires 0 <= v < |g.adj|
    requires Sort(g.adj[v] + [v]) in Space(Vertices(g))
    ensures NoDup(g.adj[v]) && v !in g.adj[v] && forall w | w in g.adj[v] :: IsVertex(g, w)
  {
    var vs := Vertices(g);
    var nv := g.adj[v];
    SpaceKeys(vs, Sort(nv + [v]));
    if !NoDup(nv + [v]) {
      SortKeepsRepeats(nv + [v]);
    }
    NoDupAppend(nv, v);
    ElemsOfMultiset(Sort(nv + [v]), nv + [v]);
    forall w | w in nv ensures IsVertex(g, w) {
      assert w in Elems(nv + [v]);
    }
  }

  /** The neighbourhood row of v is found exactly when v's neighbour list has no
      repeat, no self-loop and no vertex outside the graph. */
  lemma NeighbourhoodRowFound(g: Graph, v: int)
    requires 0 <= v < |g.adj|
    ensures NeighbourhoodRow(g, Space(Vertices(g)), v).Ok? <==>
            NoDup(g.adj[v]) && v !in g.adj[v] && forall w | w in g.adj[v] :: IsVertex(g, w)
  {
    if NoDup(g.adj[v]) && v !in g.adj[v] && forall w | w in g.adj[v] :: IsVertex(g, w) {
      ValidNeighboursFound(g, v);
    }
    if NeighbourhoodRow(g, Space(Vertices(g)), v).Ok? {
      FoundNeighboursValid(g, v);
    }
  }

  /** When found, the neighbourhood row of v relates two keys that differ by
      exactly v: the sorted closed neighbourhood N(v) ∪ {v} with weight 1 and
      the sorted open neighbourhood N(v) with weight -1. */
  lemma NeighbourhoodRowKeys(g: Graph, v: int)
    requires 0 <= v < |g.adj|
    requires NeighbourhoodRow(g, Space(Vertices(g)), v).Ok?
    ensures var keys := Space(Vertices(g));
            var closed := Sort(g.adj[v] + [v]);
            var open := Sort(g.adj[v]);
            && closed in keys && open in keys
            && Increasing(closed) && Increasing(open)
            && Elems(open) == Elems(g.adj[v])
            && Elems(closed) == Elems(open) + {v}
            && v !in Elems(open)
            && NeighbourhoodRow(g, keys, v).value == Row([Term(1, closed), Term(-1, open)], Eq, 0)
  {
    var vs := Vertices(g);
    var nv := g.adj[v];
    NeighbourhoodRowFound(g, v);
    NoDupAppend(nv, v);
    assert Elems(nv + [v]) == Elems(nv) + {v};
    SortedIsKey(vs, nv + [v]);
    SortedIsKey(vs, nv);
  }
}

=== FILE: entropy_props.dfy ===
/** Properties of the entropy model as a whole: when it is built, what rows it
    holds, and which assignments satisfy it. Satisfaction is described twice:
    by `EntropyAxioms`, whose pair clause follows the loop's position pairs and
    its `issubset` test, and by `SetEntropyAxioms`, which states monotonicity
    and submodularity over sets alone; `EntropyAxiomsOverSets` shows the two
    agree, because the key order puts every subset before its supersets. */
module EntropyProperties {
  import opened SortedKeys
  import opened SubsetSpace
  import opened Graphs
  import opened LinearProgram
  import opened Entropy

  // ----- the reference: entropy axioms over the subset space -----

  /** h(N(v) ∪ {v}) == h(N(v)) for the keys holding those sets. */
  ghost predicate NeighbourAxiom(g: Graph, keys: seq<seq<int>>, h: Assignment, v: int)
    requires 0 <= v < |g.adj|
  {
    forall a, b | a in keys && b in keys && Elems(a) == Elems(g.adj[v]) + {v} && Elems(b) == Elems(g.adj[v]) ::
      h(a) == h(b)
  }

  /** Monotonicity for S ⊆ T; otherwise submodularity over the keys holding
      S ∪ T and S ∩ T. */
  ghost predicate PairAxiom(keys: seq<seq<int>>, h: Assignment, x: int, y: int)
    requires 0 <= x < y < |keys|
  {
    var s := keys[x];
    var t := keys[y];
    if Elems(s) <= Elems(t) then h(s) <= h(t)
    else
      forall u, i | u in keys && i in keys && Elems(u) == Elems(s) + Elems(t) && Elems(i) == Elems(s) * Elems(t) ::
        h(s) + h(t) >= h(u) + h(i)
  }

  /** Normalisation, singleton bounds, local functional dependency, and the
      pair axiom for every pair of key positions x < y < 2^n - 1, as the pair
      loop visits them (the full vertex set, last in key order, takes part in
      no pair). */
  ghost predicate EntropyAxioms(g: Graph, h: Assignment) {
    var keys := Space(Vertices(g));
    && h([]) == 0.0
    && (forall k | k in keys && |k| == 1 :: h(k) <= 1.0)
    && (forall v | 0 <= v < |g.adj| :: NeighbourAxiom(g, keys, h, v))
    && (forall x, y | 0 <= x < y < |keys| - 1 :: PairAxiom(keys, h, x, y))
  }

  /** h(S) <= h(T) for keys S ⊆ T other than the full vertex set. */
  ghost predicate MonotoneAxiom(keys: seq<seq<int>>, full: seq<int>, h: Assignment) {
    forall s, t | s in keys && t in keys && s != full && t != full && Elems(s) <= Elems(t) ::
      h(s) <= h(t)
  }

  /** S and T are keys other than the full vertex set, neither contains the
      other, and U and I are the keys holding S ∪ T and S ∩ T. */
  ghost predicate SubmodularCase(keys: seq<seq<int>>, full: seq<int>, s: seq<int>, t: seq<int>, u: seq<int>, i: seq<int>) {
    && s in keys && t in keys && u in keys && i in keys
    && s != full && t != full
    && !(Elems(s) <= Elems(t)) && !(Elems(t) <= Elems(s))
    && Elems(u) == Elems(s) + Elems(t) && Elems(i) == Elems(s) * Elems(t)
  }

  /** h(S) + h(T) >= h(S ∪ T) + h(S ∩ T) in every such case. */
  ghost predicate SubmodularAxiom(keys: seq<seq<int>>, full: seq<int>, h: Assignment) {
    forall s, t, u, i | SubmodularCase(keys, full, s, t, u, i) :: h(s) + h(t) >= h(u) + h(i)
  }

  /** The entropy axioms over sets: no key positions and no branch test. */
  ghost predicate SetEntropyAxioms(g: Graph, h: Assignment) {
    var keys := Space(Vertices(g));
    && h([]) == 0.0
    && (forall k | k in keys && |k| == 1 :: h(k) <= 1.0)
    && (forall v | 0 <= v < |g.adj| :: NeighbourAxiom(g, keys, h, v))
    && MonotoneAxiom(keys, Vertices(g), h)
    && SubmodularAxiom(keys, Vertices(g), h)
  }

  predicate IsBound(r: Row) {
    r.rel == Le
  }

  // ----- when the model is built -----

  lemma NormalisationFound(g: Graph)
    ensures NormalisationRow(Space(Vertices(g))) == Ok(Row([Term(1, [])], Eq, 0))
  {
    SpaceEnds(Vertices(g));
    assert Space(Vertices(g))[0] in Space(Vertices(g));
  }

  lemma PairRowsFound(g: Graph)
    ensures Collect(PairResults(Space(Vertices(g)))).Ok?
    ensures forall i | 0 <= i < |PairResults(Space(Vertices(g)))| ::
      PairResults(Space(Vertices(g)))[i].Ok?
  {
    var vs := Vertices(g);
    var keys := Space(vs);
    var ps := PairIndices(|keys|);
    forall i | 0 <= i < |ps| ensures PairResults(keys)[i].Ok? {
      assert ps[i] in ps;
      PairRowShape(vs, ps[i].0, ps[i].1);
    }
  }

  /** The model is built, with no KeyError, exactly when every neighbour list
      is free of repeats, self-loops and foreign vertices; in particular for
      every simple graph. The subset space, the normalisation key and every
      union and intersection key are always found. */
  lemma EntropyModelFound(g: Graph)
    ensures EntropyModel(g).Ok? <==> NeighbourListsValid(g)
    ensures WellFormed(g) ==> EntropyModel(g).Ok?
  {
    var keys := Space(Vertices(g));
    NormalisationFound(g);
    PairRowsFound(g);
    forall v | 0 <= v < |g.adj|
      ensures NeighbourhoodResults(g, keys)[v].Ok? <==>
              NoDup(g.adj[v]) && v !in g.adj[v] && forall w | w in g.adj[v] :: IsVertex(g, w)
    {
      NeighbourhoodRowFound(g, v);
    }
  }

  /** The rows of a built model, in the order they are added. */
  lemma Layout(g: Graph)
    requires NeighbourListsValid(g)
    ensures EntropyModel(g).Ok?
    ensures var keys := Space(Vertices(g));
            EntropyModel(g).value.rows ==
              [Row([Term(1, [])], Eq, 0)] + SingletonRows(keys)
              + Collect(NeighbourhoodResults(g, keys)).value
              + Collect(PairResults(keys)).value
  {
    EntropyModelFound(g);
    NormalisationFound(g);
  }

  // ----- objective and rows -----

  /** The objective maximises the variable of the last key, which is the whole
      vertex set. */
  lemma EntropyObjective(g: Graph)
    requires NeighbourListsValid(g)
    ensures EntropyModel(g).Ok?
    ensures EntropyModel(g).value.sense == Maximize
    ensures EntropyModel(g).value.objective == [Term(1, Vertices(g))]
  {
    EntropyModelFound(g);
    SpaceEnds(Vertices(g));
  }

  /** A `<= 1` row is made for a key exactly when it is a key of length 1. */
  lemma SingletonRowsMembers(keys: seq<seq<int>>)
    ensures forall k :: SingletonBound(k) in SingletonRows(keys) <==> k in keys && |k| == 1
  {
    var S := Filter(keys, IsSingletonKey);
    var R := SingletonRows(keys);
    forall k ensures SingletonBound(k) in R <==> k in keys && |k| == 1 {
      FilterMember(keys, IsSingletonKey, k);
      if SingletonBound(k) in R {
        var i :| 0 <= i < |R| && R[i] == SingletonBound(k);
        assert S[i] == k;
      }
      if k in S {
        var i :| 0 <= i < |S| && S[i] == k;
        assert R[i] == SingletonBound(k);
      }
    }
  }

  /** Over the subset space there is one singleton row per vertex. */
  lemma SingletonRowsCount(g: Graph)
    ensures |SingletonRows(Space(Vertices(g)))| == |g.adj|
  {
    CountSingletonKeys(Vertices(g));
  }

  // ----- generic facts about the four row blocks -----

  lemma NeighbourhoodRowKind(g: Graph, keys: seq<seq<int>>, v: int)
    requires 0 <= v < |g.adj|
    requires NeighbourhoodRow(g, keys, v).Ok?
    ensures NeighbourhoodRow(g, keys, v).value.rel == Eq
    ensures |NeighbourhoodRow(g, keys, v).value.terms| == 2
    ensures NeighbourhoodRow(g, keys, v).value.rhs == 0
  {
  }

  lemma PairRowKind(keys: seq<seq<int>>, x: int, y: int)
    requires 0 <= x < y < |keys|
    requires PairRow(keys, x, y).Ok?
    ensures PairRow(keys, x, y).value.rel == Ge
    ensures PairRow(keys, x, y).value.rhs == 0
  {
  }

  /** Every neighbourhood row is an equation `... == 0` over two variables. */
  lemma NeighbourhoodRowsKind(g: Graph, keys: seq<seq<int>>)
    requires Collect(NeighbourhoodResults(g, keys)).Ok?
    ensures forall r | r in Collect(NeighbourhoodResults(g, keys)).value ::
      r.rel == Eq && |r.terms| == 2 && r.rhs == 0
  {
    var rs := NeighbourhoodResults(g, keys);
    var NB := Collect(rs).value;
    forall r | r in NB ensures r.rel == Eq && |r.terms| == 2 && r.rhs == 0 {
      var v :| 0 <= v < |NB| && NB[v] == r;
      assert rs[v].Ok?;
      NeighbourhoodRowKind(g, keys, v);
    }
  }

  /** Every pair row is an inequality `... >= 0`. */
  lemma PairRowsKind(keys: seq<seq<int>>)
    requires Collect(PairResults(keys)).Ok?
    ensures forall r | r in Collect(PairResults(keys)).value :: r.rel == Ge && r.rhs == 0
  {
    var rs := PairResults(keys);
    var PR := Collect(rs).value;
    var ps := PairIndices(|keys|);
    forall r | r in PR ensures r.rel == Ge && r.rhs == 0 {
      var i :| 0 <= i < |PR| && PR[i] == r;
      assert ps[i] in ps;
      assert rs[i].Ok?;
      PairRowKind(keys, ps[i].0, ps[i].1);
    }
  }

  lemma BoundCount(norm: seq<Row>, R: seq<Row>, NB: seq<Row>, PR: seq<Row>)
    requires forall r | r in norm :: r.rel == Eq
    requires forall r | r in R :: r.rel == Le
    requires forall r | r in NB :: r.rel == Eq
    requires forall r | r in PR :: r.rel == Ge
    ensures |Filter(norm + R + NB + PR, IsBound)| == |R|
  {
    FilterConcat(norm + R + NB, PR, IsBound);
    FilterConcat(norm + R, NB, IsBound);
    FilterConcat(norm, R, IsBound);
    FilterNone(norm, IsBound);
    FilterAll(R, IsBound);
    FilterNone(NB, IsBound);
    FilterNone(PR, IsBound);
  }

  lemma ZeroSatisfies(rows: seq<Row>)
    requires forall r | r in rows :: r.rhs == 0 || (r.rel == Le && r.rhs >= 0)
    ensures Feasible(rows, Zero())
  {
    forall r | r in rows ensures Holds(r, Zero()) {
      ValueOfZero(r.terms);
    }
  }

  /** Entry i of a collected third block sits at |a| + |b| + i. */
  lemma CollectedAt<T>(a: seq<T>, b: seq<T>, rs: seq<Result<T>>, d: seq<T>, i: int)
    requires Collect(rs).Ok? && 0 <= i < |rs|
    ensures rs[i].Ok?
    ensures |a| + |b| + i < |a + b + Collect(rs).value + d|
    ensures (a + b + Collect(rs).value + d)[|a| + |b| + i] == rs[i].value
  {
  }

  // ----- the rows of a built model -----

  /** The first row is X[()] == 0, and no later row is an equation on a
      single term. */
  lemma NormalisationOnce(g: Graph)
    requires NeighbourListsValid(g)
    ensures EntropyModel(g).Ok?
    ensures var rows := EntropyModel(g).value.rows;
            && rows[0] == Row([Term(1, [])], Eq, 0)
            && forall i | 1 <= i < |rows| :: !(rows[i].rel == Eq && |rows[i].terms| == 1)
  {
    Layout(g);
    var keys := Space(Vertices(g));
    var rows := EntropyModel(g).value.rows;
    var NB := Collect(NeighbourhoodResults(g, keys)).value;
    var PR := Collect(PairResults(keys)).value;
    var R := SingletonRows(keys);
    SingletonRowsKind(keys);
    NeighbourhoodRowsKind(g, keys);
    PairRowsKind(keys);
    NormalisationFirstOnly(R, NB, PR);
  }

  lemma NormalisationFirstOnly(R: seq<Row>, NB: seq<Row>, PR: seq<Row>)
    requires forall r | r in R :: r.rel == Le
    requires forall r | r in NB :: |r.terms| == 2
    requires forall r | r in PR :: r.rel == Ge
    ensures var rows := [Row([Term(1, [])], Eq, 0)] + R + NB + PR;
            forall i | 1 <= i < |rows| :: !(rows[i].rel == Eq && |rows[i].terms| == 1)
  {
    var rows := [Row([Term(1, [])], Eq, 0)] + R + NB + PR;
    var rest := R + NB + PR;
    forall i | 1 <= i < |rows| ensures !(rows[i].rel == Eq && |rows[i].terms| == 1) {
      assert rows[i] == rest[i - 1];
      assert rest[i - 1] in rest;
    }
  }

  lemma SingletonRowsKind(keys: seq<seq<int>>)
    ensures forall r | r in SingletonRows(keys) :: r.rel == Le && r.rhs == 1
  {
  }

  /** A `<= 1` row is emitted for every key of length 1 and for no other key:
      every `<=` row bounds a singleton, each singleton is bounded, and there
      are exactly n such rows, so each singleton is bounded once. */
  lemma SingletonBoundsExact(g: Graph)
    requires NeighbourListsValid(g)
    ensures EntropyModel(g).Ok?
    ensures var rows := EntropyModel(g).value.rows;
            var keys := Space(Vertices(g));
            && (forall k :: SingletonBound(k) in rows <==> k in keys && |k| == 1)
            && (forall r | r in rows && r.rel == Le ::
                  |r.terms| == 1 && r == SingletonBound(r.terms[0].key) && |r.terms[0].key| == 1)
            && |Filter(rows, IsBound)| == |g.adj|
  {
    Layout(g);
    var vs := Vertices(g);
    var keys := Space(vs);
    var rows := EntropyModel(g).value.rows;
    var norm := [Row([Term(1, [])], Eq, 0)];
    var NB := Collect(NeighbourhoodResults(g, keys)).value;
    var PR := Collect(PairResults(keys)).value;
    var R := SingletonRows(keys);
    assert rows == norm + R + NB + PR;
    SingletonRowsMembers(keys);
    SingletonRowsKind(keys);
    NeighbourhoodRowsKind(g, keys);
    PairRowsKind(keys);
    forall k ensures SingletonBound(k) in rows <==> k in keys && |k| == 1 {
      assert SingletonBound(k) !in NB && SingletonBound(k) !in PR;
    }
    forall r | r in rows && r.rel == Le
      ensures |r.terms| == 1 && r == SingletonBound(r.terms[0].key) && |r.terms[0].key| == 1
    {
      assert r in R;
      SingletonRowShape(keys, r);
    }
    BoundCount(norm, R, NB, PR);
    SingletonRowsCount(g);
  }

  lemma SingletonRowShape(keys: seq<seq<int>>, r: Row)
    requires r in SingletonRows(keys)
    ensures |r.terms| == 1 && r == SingletonBound(r.terms[0].key)
    ensures r.terms[0].key in keys && |r.terms[0].key| == 1
  {
    var R := SingletonRows(keys);
    var S := Filter(keys, IsSingletonKey);
    var i :| 0 <= i < |R| && R[i] == r;
    assert S[i] in S;
    FilterMember(keys, IsSingletonKey, S[i]);
  }

  /** The row of vertex v sits after the n singleton bounds and relates two
      keys that both exist and differ by exactly v. */
  lemma NeighbourhoodRowInModel(g: Graph, v: int)
    requires NeighbourListsValid(g)
    requires 0 <= v < |g.adj|
    ensures EntropyModel(g).Ok?
    ensures var rows := EntropyModel(g).value.rows;
            var keys := Space(Vertices(g));
            var closed := Sort(g.adj[v] + [v]);
            var open := Sort(g.adj[v]);
            && 1 + |g.adj| + v < |rows|
            && rows[1 + |g.adj| + v] == Row([Term(1, closed), Term(-1, open)], Eq, 0)
            && closed in keys && open in keys
            && Elems(closed) == Elems(open) + {v} && v !in Elems(open)
            && Elems(open) == Elems(g.adj[v])
  {
    NeighbourhoodRowAt(g, v);
    NeighbourhoodRowKeys(g, v);
  }

  /** Row 1 + n + v is the row the neighbourhood loop builds for v. */
  lemma NeighbourhoodRowAt(g: Graph, v: int)
    requires NeighbourListsValid(g)
    requires 0 <= v < |g.adj|
    ensures EntropyModel(g).Ok?
    ensures var keys := Space(Vertices(g));
            var rows := EntropyModel(g).value.rows;
            && NeighbourhoodRow(g, keys, v).Ok?
            && 1 + |g.adj| + v < |rows|
            && rows[1 + |g.adj| + v] == NeighbourhoodRow(g, keys, v).value
  {
    Layout(g);
    var keys := Space(Vertices(g));
    var rs := NeighbourhoodResults(g, keys);
    SingletonRowsCount(g);
    CollectedAt([Row([Term(1, [])], Eq, 0)], SingletonRows(keys), rs, Collect(PairResults(keys)).value, v);
    assert rs[v] == NeighbourhoodRow(g, keys, v);
  }

  /** After the neighbourhood rows come the pair rows, one for each visited
      position pair, in loop order. */
  lemma PairRowsInModel(g: Graph)
    requires NeighbourListsValid(g)
    ensures EntropyModel(g).Ok?
    ensures var rows := EntropyModel(g).value.rows;
            var keys := Space(Vertices(g));
            var ps := PairIndices(|keys|);
            var first := 1 + 2 * |g.adj|;
            && |rows| == first + |ps|
            && forall i | 0 <= i < |ps| :: rows[first + i] == PairResults(keys)[i].value
  {
    Layout(g);
    var keys := Space(Vertices(g));
    SingletonRowsCount(g);
    LastBlock([Row([Term(1, [])], Eq, 0)] + SingletonRows(keys) + Collect(NeighbourhoodResults(g, keys)).value,
              PairResults(keys));
  }

  /** Rows appended after a prefix from a successful `Collect` sit, in order,
      right after that prefix. */
  lemma LastBlock(prefix: seq<Row>, rs: seq<Result<Row>>)
    requires Collect(rs).Ok?
    ensures var rows := prefix + Collect(rs).value;
            && |rows| == |prefix| + |rs|
            && forall i | 0 <= i < |rs| :: rows[|prefix| + i] == rs[i].value
  {
  }

  /** 1 + n + n + (m-1)(m-2)/2 rows, for m = 2^n keys. */
  lemma RowCount(g: Graph)
    requires NeighbourListsValid(g)
    ensures EntropyModel(g).Ok?
    ensures var m := |Space(Vertices(g))|;
            && m == Pow2(|g.adj|)
            && 2 * |EntropyModel(g).value.rows| == 2 * (1 + 2 * |g.adj|) + (m - 1) * (m - 2)
  {
    var m := |Space(Vertices(g))|;
    RowsLength(g);
    PairCount(m);
    CountArithmetic(|EntropyModel(g).value.rows|, |g.adj|, m, |PairIndices(m)|);
  }

  lemma RowsLength(g: Graph)
    requires NeighbourListsValid(g)
    ensures EntropyModel(g).Ok?
    ensures |EntropyModel(g).value.rows| == 1 + 2 * |g.adj| + |PairIndices(|Space(Vertices(g))|)|
  {
    Layout(g);
    SingletonRowsCount(g);
  }

  lemma CountArithmetic(rows: int, n: int, m: int, pairs: int)
    requires rows == 1 + 2 * n + pairs
    requires 2 * pairs == (m - 1) * (m - 2)
    ensures 2 * rows == 2 * (1 + 2 * n) + (m - 1) * (m - 2)
  {
  }

  /** The full vertex set is never S or T of a pair row. */
  lemma LastKeyInNoPair(g: Graph)
    ensures var keys := Space(Vertices(g));
            forall p | p in PairIndices(|keys|) ::
              keys[p.0] != Vertices(g) && keys[p.1] != Vertices(g)
  {
    var vs := Vertices(g);
    var keys := Space(vs);
    SpaceEnds(vs);
    SpaceDistinct(vs);
  }

  /** Every key lies inside the full vertex set, so each pair the loop leaves
      out would have been a monotonicity row X[V] - X[S] >= 0. */
  lemma SkippedPairsMonotone(g: Graph)
    ensures var keys := Space(Vertices(g));
            forall x | 0 <= x < |keys| - 1 :: Elems(keys[x]) <= Elems(keys[|keys| - 1])
  {
    var vs := Vertices(g);
    var keys := Space(vs);
    SpaceEnds(vs);
    forall x | 0 <= x < |keys| - 1 ensures Elems(keys[x]) <= Elems(keys[|keys| - 1]) {
      assert keys[x] in keys;
      SpaceKeys(vs, keys[x]);
    }
  }

  // ----- satisfying assignments -----

  /** The all-zero assignment satisfies every row, so the model is feasible. */
  lemma ZeroFeasible(g: Graph)
    requires NeighbourListsValid(g)
    ensures EntropyModel(g).Ok?
    ensures Feasible(EntropyModel(g).value.rows, Zero())
  {
    Layout(g);
    var keys := Space(Vertices(g));
    SingletonRowsKind(keys);
    NeighbourhoodRowsKind(g, keys);
    PairRowsKind(keys);
    ZeroSatisfies(EntropyModel(g).value.rows);
  }

  /** A key of the subset space is the only one holding its set. */
  lemma KeyByElems(vs: seq<int>, a: seq<int>, b: seq<int>)
    requires Increasing(vs)
    requires a in Space(vs) && Increasing(b)
    requires Elems(a) == Elems(b)
    ensures a == b
  {
    SpaceKeys(vs, a);
    IncreasingUnique(a, b);
  }

  lemma NeighbourRowMeaning(g: Graph, v: int, h: Assignment)
    requires 0 <= v < |g.adj|
    requires NeighbourhoodRow(g, Space(Vertices(g)), v).Ok?
    ensures Holds(NeighbourhoodRow(g, Space(Vertices(g)), v).value, h) <==>
            NeighbourAxiom(g, Space(Vertices(g)), h, v)
  {
    var vs := Vertices(g);
    var keys := Space(vs);
    var closed := Sort(g.adj[v] + [v]);
    var open := Sort(g.adj[v]);
    NeighbourhoodRowKeys(g, v);
    EquationMeaning(closed, open, h);
    NeighbourAxiomMeaning(g, v, closed, open, h);
  }

  lemma EquationMeaning(a: seq<int>, b: seq<int>, h: Assignment)
    ensures Holds(Row([Term(1, a), Term(-1, b)], Eq, 0), h) <==> h(a) == h(b)
  {
    ValueOfTwo(Term(1, a), Term(-1, b), h);
  }

  /** The neighbourhood axiom of v, quantified over keys, is one equation
      between the two keys that hold N(v) ∪ {v} and N(v). */
  lemma NeighbourAxiomMeaning(g: Graph, v: int, closed: seq<int>, open: seq<int>, h: Assignment)
    requires 0 <= v < |g.adj|
    requires closed in Space(Vertices(g)) && open in Space(Vertices(g))
    requires Increasing(closed) && Increasing(open)
    requires Elems(closed) == Elems(g.adj[v]) + {v} && Elems(open) == Elems(g.adj[v])
    ensures NeighbourAxiom(g, Space(Vertices(g)), h, v) <==> h(closed) == h(open)
  {
    var vs := Vertices(g);
    var keys := Space(vs);
    forall a, b | a in keys && b in keys && Elems(a) == Elems(g.adj[v]) + {v} && Elems(b) == Elems(g.adj[v])
      ensures a == closed && b == open
    {
      KeyByElems(vs, a, closed);
      KeyByElems(vs, b, open);
    }
  }

  /** Submodularity over the row's union and intersection keys is
      submodularity over every key holding S ∪ T and S ∩ T. */
  lemma SubmodularMeaning(vs: seq<int>, s: seq<int>, t: seq<int>, h: Assignment)
    requires Increasing(vs)
    requires s in Space(vs) && t in Space(vs)
    ensures (forall u, i | u in Space(vs) && i in Space(vs) && Elems(u) == Elems(s) + Elems(t) && Elems(i) == Elems(s) * Elems(t) ::
               h(s) + h(t) >= h(u) + h(i)) <==>
            h(s) + h(t) >= h(UnionKey(s, t)) + h(IntersectionKey(s, t))
  {
    var keys := Space(vs);
    UnionKeyIsKey(vs, s, t);
    IntersectionKeyIsKey(vs, s, t);
    forall u, i | u in keys && i in keys && Elems(u) == Elems(s) + Elems(t) && Elems(i) == Elems(s) * Elems(t)
      ensures u == UnionKey(s, t) && i == IntersectionKey(s, t)
    {
      KeyByElems(vs, u, UnionKey(s, t));
      KeyByElems(vs, i, IntersectionKey(s, t));
    }
  }

  lemma PairRowMeaning(vs: seq<int>, x: int, y: int, h: Assignment)
    requires Increasing(vs)
    requires 0 <= x < y < |Space(vs)|
    ensures PairRow(Space(vs), x, y).Ok?
    ensures Holds(PairRow(Space(vs), x, y).value, h) <==> PairAxiom(Space(vs), h, x, y)
  {
    var keys := Space(vs);
    var s := keys[x];
    var t := keys[y];
    PairRowShape(vs, x, y);
    if Elems(s) <= Elems(t) {
      MonotoneRowMeaning(s, t, h);
    } else {
      SubmodularRowMeaning(vs, s, t, h);
    }
  }

  lemma MonotoneRowMeaning(s: seq<int>, t: seq<int>, h: Assignment)
    ensures Holds(Row([Term(1, t), Term(-1, s)], Ge, 0), h) <==> h(s) <= h(t)
  {
    ValueOfTwo(Term(1, t), Term(-1, s), h);
  }

  lemma SubmodularRowMeaning(vs: seq<int>, s: seq<int>, t: seq<int>, h: Assignment)
    requires Increasing(vs)
    requires s in Space(vs) && t in Space(vs)
    ensures Holds(Row([Term(1, s), Term(1, t), Term(-1, UnionKey(s, t)), Term(-1, IntersectionKey(s, t))], Ge, 0), h) <==>
            forall u, i | u in Space(vs) && i in Space(vs) && Elems(u) == Elems(s) + Elems(t) && Elems(i) == Elems(s) * Elems(t) ::
              h(s) + h(t) >= h(u) + h(i)
  {
    SubmodularInequality(s, t, UnionKey(s, t), IntersectionKey(s, t), h);
    SubmodularMeaning(vs, s, t, h);
  }

  lemma SubmodularInequality(s: seq<int>, t: seq<int>, u: seq<int>, i: seq<int>, h: Assignment)
    ensures Holds(Row([Term(1, s), Term(1, t), Term(-1, u), Term(-1, i)], Ge, 0), h) <==>
            h(s) + h(t) >= h(u) + h(i)
  {
    ValueOfFour(Term(1, s), Term(1, t), Term(-1, u), Term(-1, i), h);
  }

  lemma SingletonRowsMeaning(keys: seq<seq<int>>, h: Assignment)
    ensures Feasible(SingletonRows(keys), h) <==> forall k | k in keys && |k| == 1 :: h(k) <= 1.0
  {
    if Feasible(SingletonRows(keys), h) {
      forall k | k in keys && |k| == 1 ensures h(k) <= 1.0 {
        SingletonRowsMembers(keys);
        assert SingletonBound(k) in SingletonRows(keys);
        SingletonBoundMeaning(k, h);
      }
    }
    if forall k | k in keys && |k| == 1 :: h(k) <= 1.0 {
      forall r | r in SingletonRows(keys) ensures Holds(r, h) {
        SingletonRowShape(keys, r);
        SingletonBoundMeaning(r.terms[0].key, h);
      }
    }
  }

  lemma SingletonBoundMeaning(k: seq<int>, h: Assignment)
    ensures Holds(SingletonBound(k), h) <==> h(k) <= 1.0
  {
    ValueOfOne(Term(1, k), h);
  }

  lemma NeighbourRowsMeaning(g: Graph, h: Assignment)
    requires Collect(NeighbourhoodResults(g, Space(Vertices(g)))).Ok?
    ensures var keys := Space(Vertices(g));
            Feasible(Collect(NeighbourhoodResults(g, keys)).value, h) <==>
            forall v | 0 <= v < |g.adj| :: NeighbourAxiom(g, keys, h, v)
  {
    var keys := Space(Vertices(g));
    var rs := NeighbourhoodResults(g, keys);
    var NB := Collect(rs).value;
    forall v | 0 <= v < |g.adj|
      ensures Holds(NB[v], h) <==> NeighbourAxiom(g, keys, h, v)
    {
      assert rs[v].Ok?;
      NeighbourRowMeaning(g, v, h);
    }
    if forall v | 0 <= v < |g.adj| :: NeighbourAxiom(g, keys, h, v) {
      forall r | r in NB ensures Holds(r, h) {
        var v :| 0 <= v < |NB| && NB[v] == r;
      }
    }
    if Feasible(NB, h) {
      forall v | 0 <= v < |g.adj| ensures NeighbourAxiom(g, keys, h, v) {
        assert NB[v] in NB;
      }
    }
  }

  lemma PairRowsMeaning(g: Graph, h: Assignment)
    ensures var keys := Space(Vertices(g));
            Collect(PairResults(keys)).Ok? &&
            (Feasible(Collect(PairResults(keys)).value, h) <==>
             forall x, y | 0 <= x < y < |keys| - 1 :: PairAxiom(keys, h, x, y))
  {
    PairRowsFound(g);
    if Feasible(Collect(PairResults(Space(Vertices(g)))).value, h) {
      PairRowsSound(g, h);
    }
    if forall x, y | 0 <= x < y < |Space(Vertices(g))| - 1 :: PairAxiom(Space(Vertices(g)), h, x, y) {
      PairRowsComplete(g, h);
    }
  }

  /** Each pair row holds exactly when its pair axiom does. */
  lemma PairRowHolds(g: Graph, h: Assignment, i: int)
    requires 0 <= i < |PairIndices(|Space(Vertices(g))|)|
    ensures var keys := Space(Vertices(g));
            var p := PairIndices(|keys|)[i];
            && 0 <= p.0 < p.1 < |keys| - 1
            && PairResults(keys)[i].Ok?
            && (Holds(PairResults(keys)[i].value, h) <==> PairAxiom(keys, h, p.0, p.1))
  {
    var vs := Vertices(g);
    var ps := PairIndices(|Space(vs)|);
    assert ps[i] in ps;
    PairRowMeaning(vs, ps[i].0, ps[i].1, h);
  }

  lemma PairRowsSound(g: Graph, h: Assignment)
    requires Collect(PairResults(Space(Vertices(g)))).Ok?
    requires Feasible(Collect(PairResults(Space(Vertices(g)))).value, h)
    ensures forall x, y | 0 <= x < y < |Space(Vertices(g))| - 1 :: PairAxiom(Space(Vertices(g)), h, x, y)
  {
    var keys := Space(Vertices(g));
    var ps := PairIndices(|keys|);
    var PR := Collect(PairResults(keys)).value;
    forall x, y | 0 <= x < y < |keys| - 1 ensures PairAxiom(keys, h, x, y) {
      PairIndicesExact(|keys|);
      assert (x, y) in ps;
      var i :| 0 <= i < |ps| && ps[i] == (x, y);
      assert PR[i] in PR;
      PairRowHolds(g, h, i);
    }
  }

  lemma PairRowsComplete(g: Graph, h: Assignment)
    requires Collect(PairResults(Space(Vertices(g)))).Ok?
    requires forall x, y | 0 <= x < y < |Space(Vertices(g))| - 1 :: PairAxiom(Space(Vertices(g)), h, x, y)
    ensures Feasible(Collect(PairResults(Space(Vertices(g)))).value, h)
  {
    var keys := Space(Vertices(g));
    var PR := Collect(PairResults(keys)).value;
    forall r | r in PR ensures Holds(r, h) {
      var i :| 0 <= i < |PR| && PR[i] == r;
      PairRowHolds(g, h, i);
    }
  }

  /** An assignment satisfies the generated model exactly when it satisfies
      the entropy axioms over the subset space. */
  lemma EntropyFeasibleIff(g: Graph, h: Assignment)
    requires NeighbourListsValid(g)
    ensures EntropyModel(g).Ok?
    ensures Feasible(EntropyModel(g).value.rows, h) <==> EntropyAxioms(g, h)
  {
    Layout(g);
    var keys := Space(Vertices(g));
    var norm := [Row([Term(1, [])], Eq, 0)];
    var R := SingletonRows(keys);
    var NB := Collect(NeighbourhoodResults(g, keys)).value;
    var PR := Collect(PairResults(keys)).value;
    FeasibleConcat(norm + R + NB, PR, h);
    FeasibleConcat(norm + R, NB, h);
    FeasibleConcat(norm, R, h);
    ValueOfOne(Term(1, []), h);
    assert Feasible(norm, h) <==> h([]) == 0.0 by {
      assert norm[0] in norm;
    }
    SingletonRowsMeaning(keys, h);
    NeighbourRowsMeaning(g, h);
    PairRowsMeaning(g, h);
  }

  // ----- the pair axioms over sets -----

  /** Pair axioms at every loop position give monotonicity over sets: a subset
      key sits before its superset, so their pair is visited and takes the
      monotone branch. */
  lemma PositionsGiveMonotone(vs: seq<int>, h: Assignment)
    requires Increasing(vs)
    requires forall x, y | 0 <= x < y < |Space(vs)| - 1 :: PairAxiom(Space(vs), h, x, y)
    ensures MonotoneAxiom(Space(vs), vs, h)
  {
    var keys := Space(vs);
    SpaceEnds(vs);
    forall s, t | s in keys && t in keys && s != vs && t != vs && Elems(s) <= Elems(t)
      ensures h(s) <= h(t)
    {
      if s != t {
        var x :| 0 <= x < |keys| && keys[x] == s;
        var y :| 0 <= y < |keys| && keys[y] == t;
        SubsetComesFirst(vs, x, y);
        assert PairAxiom(keys, h, x, y);
      }
    }
  }

  /** Pair axioms at every loop position give submodularity over sets, in
      whichever order the two keys come. */
  lemma PositionsGiveSubmodular(keys: seq<seq<int>>, full: seq<int>, h: Assignment)
    requires |keys| > 0 && keys[|keys| - 1] == full
    requires forall x, y | 0 <= x < y < |keys| - 1 :: PairAxiom(keys, h, x, y)
    ensures SubmodularAxiom(keys, full, h)
  {
    forall s, t, u, i | SubmodularCase(keys, full, s, t, u, i)
      ensures h(s) + h(t) >= h(u) + h(i)
    {
      SubmodularAt(keys, full, h, s, t, u, i);
    }
  }

  lemma SubmodularAt(keys: seq<seq<int>>, full: seq<int>, h: Assignment, s: seq<int>, t: seq<int>, u: seq<int>, i: seq<int>)
    requires |keys| > 0 && keys[|keys| - 1] == full
    requires forall x, y | 0 <= x < y < |keys| - 1 :: PairAxiom(keys, h, x, y)
    requires SubmodularCase(keys, full, s, t, u, i)
    ensures h(s) + h(t) >= h(u) + h(i)
  {
    var x :| 0 <= x < |keys| && keys[x] == s;
    var y :| 0 <= y < |keys| && keys[y] == t;
    if x < y {
      SubmodularFromPair(keys, h, x, y, u, i);
    } else {
      SubmodularFromPair(keys, h, y, x, u, i);
    }
  }

  /** One instance of the pair axiom's submodular branch, read in either order
      of the two keys. */
  lemma SubmodularFromPair(keys: seq<seq<int>>, h: Assignment, x: int, y: int, u: seq<int>, i: seq<int>)
    requires 0 <= x < y < |keys| - 1
    requires forall x', y' | 0 <= x' < y' < |keys| - 1 :: PairAxiom(keys, h, x', y')
    requires !(Elems(keys[x]) <= Elems(keys[y]))
    requires u in keys && i in keys
    requires Elems(u) == Elems(keys[x]) + Elems(keys[y]) && Elems(i) == Elems(keys[x]) * Elems(keys[y])
    ensures h(keys[x]) + h(keys[y]) >= h(u) + h(i)
  {
    assert PairAxiom(keys, h, x, y);
  }

  /** Monotonicity and submodularity over sets give the pair axiom at every
      loop position: the later key of a pair is never a proper subset of the
      earlier one, so the branch test picks the matching axiom. */
  lemma SetsGivePositions(vs: seq<int>, h: Assignment)
    requires Increasing(vs)
    requires MonotoneAxiom(Space(vs), vs, h) && SubmodularAxiom(Space(vs), vs, h)
    ensures forall x, y | 0 <= x < y < |Space(vs)| - 1 :: PairAxiom(Space(vs), h, x, y)
  {
    var keys := Space(vs);
    SpaceEnds(vs);
    SpaceDistinct(vs);
    forall x, y | 0 <= x < y < |keys| - 1 ensures PairAxiom(keys, h, x, y) {
      var s := keys[x];
      var t := keys[y];
      assert s in keys && t in keys && s != vs && t != vs;
      if !(Elems(s) <= Elems(t)) {
        assert !(Elems(t) <= Elems(s)) by {
          if Elems(t) <= Elems(s) {
            SubsetComesFirst(vs, y, x);
          }
        }
      }
    }
  }

  /** The position-indexed axioms and the set-level axioms agree. */
  lemma EntropyAxiomsOverSets(g: Graph, h: Assignment)
    ensures EntropyAxioms(g, h) <==> SetEntropyAxioms(g, h)
  {
    var vs := Vertices(g);
    if forall x, y | 0 <= x < y < |Space(vs)| - 1 :: PairAxiom(Space(vs), h, x, y) {
      PositionsGiveMonotone(vs, h);
      SpaceEnds(vs);
      PositionsGiveSubmodular(Space(vs), vs, h);
    }
    if MonotoneAxiom(Space(vs), vs, h) && SubmodularAxiom(Space(vs), vs, h) {
      SetsGivePositions(vs, h);
    }
  }

  /** An assignment satisfies the generated model exactly when it satisfies
      normalisation, the singleton bounds, the neighbourhood equations, and
      monotonicity and submodularity over sets of vertices. */
  lemma EntropyFeasibleIffSets(g: Graph, h: Assignment)
    requires NeighbourListsValid(g)
    ensures EntropyModel(g).Ok?
    ensures Feasible(EntropyModel(g).value.rows, h) <==> SetEntropyAxioms(g, h)
  {
    EntropyFeasibleIff(g, h);
    EntropyAxiomsOverSets(g, h);
  }
}

=== FILE: examples.dfy ===
/** Small worked instances: the path 0 - 1 - 2, and a one-vertex graph whose
    vertex lists itself as a neighbour. */
module Examples {
  import opened SortedKeys
  import opened SubsetSpace
  import opened Graphs
  import opened LinearProgram
  import opened Entropy
  import opened EntropyProperties

  function Path(): Graph {
    Graph([[1], [0, 2], [1]])
  }

  function SelfLoop(): Graph {
    Graph([[0]])
  }

  lemma SortOne(x: int)
    ensures Sort([x]) == [x]
  {
    assert [x][1..] == [];
  }

  lemma SortTwo(x: int, y: int)
    requires x <= y
    ensures Sort([x, y]) == [x, y]
  {
    SortOne(y);
    assert [x, y][1..] == [y];
  }

  lemma SortThree()
    ensures Sort([0, 2, 1]) == [0, 1, 2]
  {
    SortLastBetween(0, 2, 1);
  }

  /** Sorting [a, b, c] with a < c < b moves c in front of b. */
  lemma SortLastBetween(a: int, b: int, c: int)
    requires a < c < b
    ensures Sort([a, b, c]) == [a, c, b]
  {
    var l := [a, b, c];
    assert l[1..] == [b, c] && l[1..][1..] == [c];
    SortOne(c);
    SortStep([b, c]);
    InsertAbove(b, [c]);
    SortStep(l);
    InsertBelow(a, [c, b]);
  }

  /** The path's neighbour lists are repeat-free, loop-free and symmetric. */
  lemma PathWellFormed()
    ensures WellFormed(Path())
  {
    PathListsValid();
    var g := Path();
    assert forall u, w | 0 <= u < 3 && w in g.adj[u] :: 0 <= w < 3 && u in g.adj[w];
  }

  lemma PathListsValid()
    ensures NeighbourListsValid(Path())
  {
    IncreasingNoDup([1]);
    IncreasingNoDup([0, 2]);
  }

  /** For the middle vertex of the path, the row is X[(0,1,2)] - X[(0,2)] == 0. */
  lemma PathMiddleRow()
    ensures NeighbourhoodRow(Path(), Space(Vertices(Path())), 1) ==
            Ok(Row([Term(1, [0, 1, 2]), Term(-1, [0, 2])], Eq, 0))
  {
    var g := Path();
    PathWellFormed();
    assert g.adj[1] + [1] == [0, 2, 1];
    NeighbourhoodRowFound(g, 1);
    NeighbourhoodRowKeys(g, 1);
    SortThree();
    SortTwo(0, 2);
  }

  /** The path is a simple graph, so its model is built, with 1 + 3 + 3 + 21
      rows over the 8 subsets of {0, 1, 2}. */
  lemma PathModelBuilt()
    ensures EntropyModel(Path()).Ok?
    ensures |EntropyModel(Path()).value.rows| == 28
  {
    PathListsValid();
    ThreeVertexRows(Path());
  }

  /** Any built model over three vertices has 1 + 3 + 3 + (8-1)(8-2)/2 rows. */
  lemma ThreeVertexRows(g: Graph)
    requires |g.adj| == 3
    requires NeighbourListsValid(g)
    ensures EntropyModel(g).Ok?
    ensures |EntropyModel(g).value.rows| == 28
  {
    var m := |Space(Vertices(g))|;
    assert m == 8 by {
      assert |Vertices(g)| == 3;
      assert Pow2(3) == 8 by {
        assert Pow2(0) == 1;
      }
    }
    RowsLength(g);
    PairCount(m);
  }

  /** A self-loop puts v in its own neighbour list: the closed-neighbourhood
      key (0, 0) is not a subset key, and building the model stops there. */
  lemma SelfLoopKeyError()
    ensures EntropyModel(SelfLoop()) == KeyError([0, 0])
  {
    var g := SelfLoop();
    var keys := Space(Vertices(g));
    NormalisationFound(g);
    SelfLoopClosedMissing();
    assert NeighbourhoodResults(g, keys)[0] == KeyError([0, 0]);
  }

  lemma SelfLoopClosedMissing()
    ensures NeighbourhoodRow(SelfLoop(), Space(Vertices(SelfLoop())), 0) == KeyError([0, 0])
  {
    var vs := Vertices(SelfLoop());
    assert vs == [0];
    SortTwo(0, 0);
    SpaceKeys(vs, [0, 0]);
  }
}

=== FILE: graph.dfy ===
/** The graph the two LPs are generated from, stored the way networkx stores an
    undirected graph: vertices 0..n-1 (added in ascending order by the graph
    builders) and, for each vertex, its neighbour list in insertion order. */
module Graphs {
  import opened SortedKeys

  datatype Graph = Graph(adj: seq<seq<int>>)

  /** `G.nodes`: 0, 1, ..., n-1 in order. */
  function Vertices(g: Graph): (vs: seq<int>)
    ensures |vs| == |g.adj|
    ensures Increasing(vs)
    ensures forall x :: x in vs <==> 0 <= x < |g.adj|
  {
    var vs := seq(|g.adj|, i => i);
    assert forall x :: x in vs <==> 0 <= x < |g.adj| by {
      forall x ensures x in vs <==> 0 <= x < |g.adj| {
        if 0 <= x < |g.adj| {
          assert vs[x] == x;
        }
      }
    }
    vs
  }

  predicate IsVertex(g: Graph, v: int) {
    0 <= v < |g.adj|
  }

  /** `w in G[u]` */
  predicate Adjacent(g: Graph, u: int, w: int) {
    IsVertex(g, u) && w in g.adj[u]
  }

  /** What the entropy model needs of each neighbour list `G.neighbors(v)`:
      no repeats, no self-loop, and only vertices of the graph. */
  predicate NeighbourListsValid(g: Graph) {
    forall v | 0 <= v < |g.adj| ::
      && NoDup(g.adj[v])
      && v !in g.adj[v]
      && forall w | w in g.adj[v] :: IsVertex(g, w)
  }

  /** A simple undirected graph: valid neighbour lists, and every edge is
      recorded at both ends. */
  predicate WellFormed(g: Graph) {
    && NeighbourListsValid(g)
    && forall u, w | 0 <= u < |g.adj| && w in g.adj[u] :: 0 <= w < |g.adj| && u in g.adj[w]
  }

  /** Every two members of the tuple are adjacent; the empty tuple and every
      singleton are cliques. Stands in for `nx.enumerate_all_cliques`. */
  predicate IsClique(g: Graph, s: seq<int>) {
    forall i, j :: 0 <= i < j < |s| ==> Adjacent(g, s[i], s[j])
  }

  predicate Edgeless(g: Graph) {
    forall v | 0 <= v < |g.adj| :: |g.adj[v]| == 0
  }

  predicate Complete(g: Graph) {
    forall u, w | 0 <= u < |g.adj| && 0 <= w < |g.adj| && u != w :: w in g.adj[u]
  }
}

=== FILE: keys.dfy ===
/** Canonical subset keys.

    Every LP variable is indexed by a vertex tuple in ascending order. Keys that
    are derived later (neighbourhoods, unions, intersections) are brought into
    that form with Python's `list.sort()` before they are looked up, so this
    module defines the ascending form, the list operations that feed the sort,
    and the fact that the sorted list depends only on the set of its elements.
 */
module SortedKeys {

  /** Canonical form: strictly ascending, hence sorted and free of repeats. */
  predicate Increasing(s: seq<int>) {
    forall i, j :: 0 <= i < j < |s| ==> s[i] < s[j]
  }

  /** Non-decreasing order, what `list.sort()` guarantees for any list. */
  predicate Sorted(s: seq<int>) {
    forall i, j :: 0 <= i < j < |s| ==> s[i] <= s[j]
  }

  /** Each value occurs at most once: `Distinct` for vertex tuples, counted by
      multiplicity because the sort is specified through multisets.
      `NoDupIsDistinct` shows the two say the same. */
  predicate NoDup(s: seq<int>) {
    forall x | x in s :: multiset(s)[x] <= 1
  }

  /** The set a tuple stands for (Python's `set(S)`). */
  function Elems(s: seq<int>): set<int> {
    set x | x in s
  }

  /** Distinct entries, for sequences of keys, rows and index pairs. */
  predicate Distinct<T(==)>(ss: seq<T>) {
    forall i, j :: 0 <= i < j < |ss| ==> ss[i] != ss[j]
  }

  lemma DistinctConcat<T>(a: seq<T>, b: seq<T>)
    requires Distinct(a) && Distinct(b)
    requires forall x :: x in a ==> x !in b
    ensures Distinct(a + b)
  {
    forall i, j | 0 <= i < j < |a + b|
      ensures (a + b)[i] != (a + b)[j]
    {
      if j < |a| {
      } else if i >= |a| {
        assert (a + b)[i] == b[i - |a|] && (a + b)[j] == b[j - |a|];
      } else {
        assert (a + b)[i] in a && (a + b)[j] in b;
      }
    }
  }

  /** The entries of `s` that satisfy `p`, in order. */
  function Filter<T(==)>(s: seq<T>, p: T -> bool): (r: seq<T>)
    ensures forall i :: 0 <= i < |r| ==> r[i] in s && p(r[i])
    ensures forall i :: 0 <= i < |s| && p(s[i]) ==> s[i] in r
    ensures |r| <= |s|
    ensures Distinct(s) ==> Distinct(r)
  {
    if |s| == 0 then []
    else
      var rest := Filter(s[1..], p);
      assert s == [s[0]] + s[1..];
      if p(s[0]) then
        assert Distinct(s) ==> Distinct([s[0]] + rest) by {
          if Distinct(s) {
            assert Distinct(s[1..]) by {
              forall i, j | 0 <= i < j < |s[1..]| ensures s[1..][i] != s[1..][j] {
                assert s[1..][i] == s[i + 1] && s[1..][j] == s[j + 1];
              }
            }
            assert s[0] !in s[1..] by {
              forall k | 0 <= k < |s[1..]| ensures s[1..][k] != s[0] {
                assert s[1..][k] == s[k + 1];
              }
            }
            DistinctConcat([s[0]], rest);
          }
        }
        [s[0]] + rest
      else
        assert Distinct(s) ==> Distinct(s[1..]) by {
          if Distinct(s) {
            forall i, j | 0 <= i < j < |s[1..]| ensures s[1..][i] != s[1..][j] {
              assert s[1..][i] == s[i + 1] && s[1..][j] == s[j + 1];
            }
          }
        }
        rest
  }

  lemma FilterCons<T>(s: seq<T>, p: T -> bool)
    requires |s| > 0
    ensures Filter(s, p) == if p(s[0]) then [s[0]] + Filter(s[1..], p) else Filter(s[1..], p)
  {
  }

  lemma FilterMember<T>(s: seq<T>, p: T -> bool, x: T)
    ensures x in Filter(s, p) <==> x in s && p(x)
  {
    if x in Filter(s, p) {
      var i :| 0 <= i < |Filter(s, p)| && Filter(s, p)[i] == x;
    }
    if x in s && p(x) {
      var i :| 0 <= i < |s| && s[i] == x;
    }
  }

  lemma {:induction false} FilterAll<T>(s: seq<T>, p: T -> bool)
    requires forall i :: 0 <= i < |s| ==> p(s[i])
    ensures Filter(s, p) == s
  {
    if |s| > 0 {
      FilterAll(s[1..], p);
      assert s == [s[0]] + s[1..];
    }
  }

  lemma {:induction false} FilterNone<T>(s: seq<T>, p: T -> bool)
    requires forall i :: 0 <= i < |s| ==> !p(s[i])
    ensures Filter(s, p) == []
  {
    if |s| > 0 {
      FilterNone(s[1..], p);
    }
  }

  lemma {:induction false} FilterConcat<T>(a: seq<T>, b: seq<T>, p: T -> bool)
    ensures Filter(a + b, p) == Filter(a, p) + Filter(b, p)
  {
    if |a| == 0 {
      assert a + b == b;
    } else {
      assert (a + b)[1..] == a[1..] + b;
      FilterConcat(a[1..], b, p);
    }
  }

  lemma {:induction false} IncreasingNoDup(s: seq<int>)
    requires Increasing(s)
    ensures NoDup(s)
  {
    if |s| > 0 {
      IncreasingNoDup(s[1..]);
      assert s == [s[0]] + s[1..];
      assert s[0] !in s[1..] by {
        forall k | 1 <= k < |s| ensures s[k] != s[0] { }
      }
      assert multiset(s) == multiset{s[0]} + multiset(s[1..]);
    }
  }

  /** A value at two positions occurs twice. */
  lemma RepeatBreaksNoDup(s: seq<int>, i: int, j: int)
    requires 0 <= i < j < |s| && s[i] == s[j]
    ensures !NoDup(s)
  {
    assert s == s[..j] + s[j..];
    assert s[i] in s[..j];
    assert s[j] in s[j..];
    assert multiset(s)[s[i]] == multiset(s[..j])[s[i]] + multiset(s[j..])[s[i]];
  }

  lemma SortedNoDupIncreasing(s: seq<int>)
    requires Sorted(s) && NoDup(s)
    ensures Increasing(s)
  {
    forall i, j | 0 <= i < j < |s| ensures s[i] < s[j] {
      if s[i] == s[j] {
        RepeatBreaksNoDup(s, i, j);
      }
    }
  }

  /** Occurring at most once is having no equal entries at two positions. */
  lemma {:induction false} NoDupIsDistinct(s: seq<int>)
    ensures NoDup(s) <==> Distinct(s)
  {
    if NoDup(s) {
      forall i, j | 0 <= i < j < |s| ensures s[i] != s[j] {
        if s[i] == s[j] {
          RepeatBreaksNoDup(s, i, j);
        }
      }
    }
    if Distinct(s) && |s| > 0 {
      assert Distinct(s[1..]) by {
        forall i, j | 0 <= i < j < |s[1..]| ensures s[1..][i] != s[1..][j] {
          assert s[1..][i] == s[i + 1] && s[1..][j] == s[j + 1];
        }
      }
      assert s[0] !in s[1..] by {
        forall k | 0 <= k < |s[1..]| ensures s[1..][k] != s[0] {
          assert s[1..][k] == s[k + 1];
        }
      }
      NoDupIsDistinct(s[1..]);
      assert s == [s[0]] + s[1..];
      assert multiset(s) == multiset{s[0]} + multiset(s[1..]);
    }
  }

  lemma ElemsOfMultiset(a: seq<int>, b: seq<int>)
    requires multiset(a) == multiset(b)
    ensures Elems(a) == Elems(b)
  {
    forall x ensures x in a <==> x in b {
      assert x in a <==> x in multiset(a);
      assert x in b <==> x in multiset(b);
    }
  }

  /** Insert one value into a sorted list, keeping it sorted. */
  function Insert(x: int, s: seq<int>): (r: seq<int>)
    requires Sorted(s)
    ensures Sorted(r)
    ensures multiset(r) == multiset(s) + multiset{x}
    decreases |s|, 1
  {
    if |s| == 0 then [x]
    else if x <= s[0] then [x] + s
    else
      InsertStep(x, s);
      [s[0]] + Insert(x, s[1..])
  }

  lemma InsertStep(x: int, s: seq<int>)
    requires Sorted(s) && |s| > 0 && s[0] < x
    ensures Sorted([s[0]] + Insert(x, s[1..]))
    ensures multiset([s[0]] + Insert(x, s[1..])) == multiset(s) + multiset{x}
    decreases |s|, 0
  {
    var rest := Insert(x, s[1..]);
    assert s == [s[0]] + s[1..];
    forall k | 0 <= k < |rest| ensures s[0] <= rest[k] {
      assert rest[k] in multiset(rest);
      assert rest[k] == x || rest[k] in s[1..];
    }
    SortedCons(s[0], rest);
  }

  lemma SortedCons(a: int, s: seq<int>)
    requires Sorted(s)
    requires forall k | 0 <= k < |s| :: a <= s[k]
    ensures Sorted([a] + s)
  {
    forall i, j | 0 <= i < j < |[a] + s| ensures ([a] + s)[i] <= ([a] + s)[j] {
      if i > 0 {
        assert ([a] + s)[i] == s[i - 1];
      }
      assert ([a] + s)[j] == s[j - 1];
    }
  }

  /** Python's `list.sort()` on a list of vertex numbers (insertion sort;
      equal numbers are indistinguishable, so stability does not matter). */
  function Sort(l: seq<int>): (r: seq<int>)
    ensures Sorted(r)
    ensures multiset(r) == multiset(l)
  {
    if |l| == 0 then []
    else
      assert l == [l[0]] + l[1..];
      Insert(l[0], Sort(l[1..]))
  }

  /** One step of the insertion sort. */
  lemma SortStep(l: seq<int>)
    requires |l| > 0
    ensures Sort(l) == Insert(l[0], Sort(l[1..]))
  {
  }

  /** A value no larger than the head goes in front. */
  lemma InsertBelow(x: int, s: seq<int>)
    requires Sorted(s) && |s| > 0 && x <= s[0]
    ensures Insert(x, s) == [x] + s
  {
  }

  /** A value larger than the only entry goes behind it. */
  lemma InsertAbove(x: int, s: seq<int>)
    requires |s| == 1 && s[0] < x
    ensures Insert(x, s) == s + [x]
  {
    assert s[1..] == [];
  }

  /** Sorting a repeat-free list yields the canonical key of its set. */
  lemma SortCanonical(l: seq<int>)
    requires NoDup(l)
    ensures Increasing(Sort(l))
    ensures Elems(Sort(l)) == Elems(l)
  {
    SortedNoDupIncreasing(Sort(l));
    ElemsOfMultiset(Sort(l), l);
  }

  /** Sorting a list that holds a repeat cannot give a canonical key. */
  lemma SortKeepsRepeats(l: seq<int>)
    requires !NoDup(l)
    ensures !Increasing(Sort(l))
  {
    if Increasing(Sort(l)) {
      IncreasingNoDup(Sort(l));
    }
  }

  lemma {:induction false} IncreasingTail(a: seq<int>)
    requires Increasing(a) && |a| > 0
    ensures Increasing(a[1..])
    ensures Elems(a[1..]) == Elems(a) - {a[0]}
  {
    assert a == [a[0]] + a[1..];
    forall x | x in a[1..] ensures x != a[0] {
      var k :| 0 <= k < |a[1..]| && a[1..][k] == x;
      assert a[k + 1] == x;
    }
  }

  lemma ElemsOfNonEmpty(s: seq<int>)
    ensures |s| > 0 ==> s[0] in Elems(s)
  {
  }

  /** An ascending tuple has as many elements as its set. */
  lemma {:induction false} IncreasingCard(a: seq<int>)
    requires Increasing(a)
    ensures |Elems(a)| == |a|
  {
    if |a| > 0 {
      IncreasingTail(a);
      IncreasingCard(a[1..]);
      assert Elems(a) == Elems(a[1..]) + {a[0]};
      assert a[0] !in Elems(a[1..]);
    }
  }

  /** A subset at least as large as its superset is the whole superset. */
  lemma SubsetOfSameSize(a: set<int>, b: set<int>)
    requires a <= b && |b| <= |a|
    ensures a == b
  {
    assert b == a + (b - a);
    assert a * (b - a) == {};
    assert |b - a| == 0;
    forall x | x in b ensures x in a {
      assert x !in b - a;
    }
  }

  /** A canonical key is determined by its set: two ascending tuples with the
      same elements are equal. This is why recomputed keys find their variable. */
  lemma {:induction false} IncreasingUnique(a: seq<int>, b: seq<int>)
    requires Increasing(a) && Increasing(b)
    requires Elems(a) == Elems(b)
    ensures a == b
    decreases |a|
  {
    if |a| == 0 {
      ElemsOfNonEmpty(b);
    } else {
      assert a[0] in Elems(b);
      assert |b| > 0;
      assert b[0] in Elems(a);
      var i :| 0 <= i < |a| && a[i] == b[0];
      var j :| 0 <= j < |b| && b[j] == a[0];
      assert a[0] <= a[i];
      assert b[0] <= b[j];
      IncreasingTail(a);
      IncreasingTail(b);
      IncreasingUnique(a[1..], b[1..]);
      assert a == [a[0]] + a[1..];
      assert b == [b[0]] + b[1..];
    }
  }

  /** Sorting depends only on the set of a repeat-free list, whatever its order. */
  lemma SortBySet(a: seq<int>, b: seq<int>)
    requires NoDup(a) && NoDup(b)
    requires Elems(a) == Elems(b)
    ensures Sort(a) == Sort(b)
  {
    SortCanonical(a);
    SortCanonical(b);
    IncreasingUnique(Sort(a), Sort(b));
  }

  /** Sorting a key that is already canonical leaves it as it is. */
  lemma SortIncreasing(s: seq<int>)
    requires Increasing(s)
    ensures Sort(s) == s
  {
    IncreasingNoDup(s);
    SortCanonical(s);
    IncreasingUnique(Sort(s), s);
  }

  /** `list(set(s))`: the values of `s`, each once. Python's set iteration order
      is not modelled; this keeps last occurrences, and SortBySet shows the
      order is irrelevant once the result is sorted. */
  function Dedup(s: seq<int>): (r: seq<int>)
    ensures NoDup(r)
    ensures Elems(r) == Elems(s)
  {
    if |s| == 0 then []
    else
      var rest := Dedup(s[1..]);
      assert s == [s[0]] + s[1..];
      if s[0] in s[1..] then rest
      else
        assert s[0] !in Elems(rest);
        assert multiset([s[0]] + rest) == multiset{s[0]} + multiset(rest);
        assert Elems([s[0]] + rest) == {s[0]} + Elems(rest);
        [s[0]] + rest
  }

  /** `[val for val in s if val in t]`: the elements of `s` that occur in `t`,
      in the order of `s`. */
  function Retain(s: seq<int>, t: seq<int>): (r: seq<int>)
    ensures Elems(r) == Elems(s) * Elems(t)
    ensures Increasing(s) ==> Increasing(r)
  {
    if |s| == 0 then []
    else
      var rest := Retain(s[1..], t);
      assert s == [s[0]] + s[1..];
      if s[0] in t then
        assert Increasing(s) ==> forall k :: 0 <= k < |rest| ==> s[0] < rest[k] by {
          if Increasing(s) {
            forall k | 0 <= k < |rest| ensures s[0] < rest[k] {
              assert rest[k] in Elems(rest);
              var m :| 1 <= m < |s| && s[m] == rest[k];
            }
          }
        }
        assert Elems([s[0]] + rest) == {s[0]} + Elems(rest);
        [s[0]] + rest
      else rest
  }
}

=== FILE: lp.dfy ===
/** The linear programs handed to the solver, as data: constraint rows over
    variables named by subset keys. The solver itself is not modelled; an
    assignment of values to variables can be checked against the rows. */
module LinearProgram {
  import opened SortedKeys

  /** A lookup `lp_xs[key]`: the key, or Python's KeyError naming it. */
  datatype Result<+T> = Ok(value: T) | KeyError(key: seq<int>) {
    predicate IsFailure() {
      KeyError?
    }

    function PropagateFailure<U>(): Result<U>
      requires KeyError?
    {
      KeyError(key)
    }

    function Extract(): T
      requires Ok?
    {
      value
    }
  }

  /** `lp_xs[k]` where `keys` is the key list of the variable dictionary. */
  function Var(keys: seq<seq<int>>, k: seq<int>): Result<seq<int>> {
    if k in keys then Ok(k) else KeyError(k)
  }

  datatype Relation = Eq | Le | Ge

  /** `coef * X[key]` */
  datatype Term = Term(coef: int, key: seq<int>)

  /** `sum of terms  rel  rhs`, one `prob += ...` constraint. */
  datatype Row = Row(terms: seq<Term>, rel: Relation, rhs: int)

  datatype Sense = Minimize | Maximize

  datatype Model = Model(sense: Sense, objective: seq<Term>, rows: seq<Row>)

  /** A value for every variable. */
  type Assignment = seq<int> -> real

  function Value(ts: seq<Term>, h: Assignment): real {
    if |ts| == 0 then 0.0 else ts[0].coef as real * h(ts[0].key) + Value(ts[1..], h)
  }

  /** The coefficient a linear expression gives the variable `k`, after
      like terms are combined. */
  function Coeff(ts: seq<Term>, k: seq<int>): int {
    if |ts| == 0 then 0 else (if ts[0].key == k then ts[0].coef else 0) + Coeff(ts[1..], k)
  }

  /** `lpSum(lp_xs[k] for k in keys)`: each listed variable with weight 1. */
  function UnitTerms(keys: seq<seq<int>>): seq<Term> {
    seq(|keys|, i requires 0 <= i < |keys| => Term(1, keys[i]))
  }

  predicate Holds(r: Row, h: Assignment) {
    var lhs := Value(r.terms, h);
    match r.rel
    case Eq => lhs == r.rhs as real
    case Le => lhs <= r.rhs as real
    case Ge => lhs >= r.rhs as real
  }

  predicate Feasible(rows: seq<Row>, h: Assignment) {
    forall r | r in rows :: Holds(r, h)
  }

  /** The assignment that gives 1 to `k` and 0 to every other variable. */
  function Indicator(k: seq<int>): Assignment {
    x => if x == k then 1.0 else 0.0
  }

  function Zero(): Assignment {
    x => 0.0
  }

  /** Adding the rows one after another: the first failed lookup aborts the
      build with its KeyError; otherwise every row is kept, in order. */
  function Collect<T>(rs: seq<Result<T>>): (r: Result<seq<T>>)
    ensures r.Ok? <==> forall i :: 0 <= i < |rs| ==> rs[i].Ok?
    ensures r.Ok? ==> |r.value| == |rs| && forall i :: 0 <= i < |rs| ==> r.value[i] == rs[i].value
    ensures r.KeyError? ==>
      exists i :: 0 <= i < |rs| && rs[i] == KeyError(r.key) && forall j :: 0 <= j < i ==> rs[j].Ok?
  {
    if |rs| == 0 then Ok([])
    else if rs[0].KeyError? then KeyError(rs[0].key)
    else
      match Collect(rs[1..])
      case Ok(rest) => Ok([rs[0].value] + rest)
      case KeyError(k) =>
        assert forall j :: 1 <= j < |rs| ==> rs[j] == rs[1..][j - 1];
        KeyError(k)
  }

  // ----- evaluating expressions -----

  lemma ValueOfOne(a: Term, h: Assignment)
    ensures Value([a], h) == a.coef as real * h(a.key)
  {
    assert [a][1..] == [];
  }

  lemma ValueOfTwo(a: Term, b: Term, h: Assignment)
    ensures Value([a, b], h) == a.coef as real * h(a.key) + b.coef as real * h(b.key)
  {
    assert [a, b][1..] == [b];
    ValueOfOne(b, h);
  }

  lemma ValueOfFour(a: Term, b: Term, c: Term, d: Term, h: Assignment)
    ensures Value([a, b, c, d], h) ==
            a.coef as real * h(a.key) + b.coef as real * h(b.key)
            + c.coef as real * h(c.key) + d.coef as real * h(d.key)
  {
    assert [a, b, c, d][1..] == [b, c, d];
    assert [b, c, d][1..] == [c, d];
    ValueOfTwo(c, d, h);
  }

  lemma FeasibleConcat(a: seq<Row>, b: seq<Row>, h: Assignment)
    ensures Feasible(a + b, h) <==> Feasible(a, h) && Feasible(b, h)
  {
    if Feasible(a, h) && Feasible(b, h) {
      forall r | r in a + b ensures Holds(r, h) {
      }
    }
  }

  /** Evaluating at an indicator reads off the variable's coefficient. */
  lemma {:induction false} ValueOfIndicator(ts: seq<Term>, k: seq<int>)
    ensures Value(ts, Indicator(k)) == Coeff(ts, k) as real
  {
    if |ts| > 0 {
      ValueOfIndicator(ts[1..], k);
    }
  }

  lemma {:induction false} ValueOfZero(ts: seq<Term>)
    ensures Value(ts, Zero()) == 0.0
  {
    if |ts| > 0 {
      ValueOfZero(ts[1..]);
    }
  }

  /** With non-negative coefficients and values, a sum is at least any one of
      its terms. */
  lemma {:induction false} ValueAtLeastTerm(ts: seq<Term>, h: Assignment, i: int)
    requires 0 <= i < |ts|
    requires forall t :: t in ts ==> t.coef >= 0 && h(t.key) >= 0.0
    ensures Value(ts, h) >= ts[i].coef as real * h(ts[i].key)
  {
    NonNegativeValue(ts[1..], h);
    if i > 0 {
      ValueAtLeastTerm(ts[1..], h, i - 1);
    }
  }

  /** A sum whose terms all name one variable is that variable times its
      combined coefficient. */
  lemma {:induction false} ValueOneKey(ts: seq<Term>, k: seq<int>, h: Assignment)
    requires forall t :: t in ts ==> t.key == k
    ensures Value(ts, h) == Coeff(ts, k) as real * h(k)
  {
    if |ts| > 0 {
      assert ts[0] in ts;
      ValueOneKey(ts[1..], k, h);
    }
  }

  lemma {:induction false} NonNegativeValue(ts: seq<Term>, h: Assignment)
    requires forall t :: t in ts ==> t.coef >= 0 && h(t.key) >= 0.0
    ensures Value(ts, h) >= 0.0
  {
    if |ts| > 0 {
      assert ts[0] in ts;
      NonNegativeValue(ts[1..], h);
    }
  }

  lemma {:induction false} UnitTermsTail(keys: seq<seq<int>>)
    requires |keys| > 0
    ensures UnitTerms(keys)[0] == Term(1, keys[0])
    ensures UnitTerms(keys)[1..] == UnitTerms(keys[1..])
  {
  }

  /** Summing distinct keys gives each of them coefficient 1 and every other
      variable coefficient 0. */
  lemma {:induction false} UnitTermsCoeff(keys: seq<seq<int>>, k: seq<int>)
    requires Distinct(keys)
    ensures Coeff(UnitTerms(keys), k) == if k in keys then 1 else 0
  {
    if |keys| > 0 {
      UnitTermsTail(keys);
      assert Distinct(keys[1..]) by {
        forall i, j | 0 <= i < j < |keys[1..]| ensures keys[1..][i] != keys[1..][j] {
          assert keys[1..][i] == keys[i + 1] && keys[1..][j] == keys[j + 1];
        }
      }
      assert keys[0] !in keys[1..] by {
        forall m | 0 <= m < |keys[1..]| ensures keys[1..][m] != keys[0] {
          assert keys[1..][m] == keys[m + 1];
        }
      }
      assert keys == [keys[0]] + keys[1..];
      UnitTermsCoeff(keys[1..], k);
    }
  }

  /** With non-negative values, dropping variables from a sum cannot raise it. */
  lemma {:induction false} UnitTermsFilterValue(keys: seq<seq<int>>, p: seq<int> -> bool, h: Assignment)
    requires forall k :: k in keys ==> h(k) >= 0.0
    ensures Value(UnitTerms(Filter(keys, p)), h) <= Value(UnitTerms(keys), h)
  {
    if |keys| > 0 {
      assert keys[0] in keys;
      UnitTermsValueCons(keys, h);
      UnitTermsFilterValue(keys[1..], p, h);
      FilterCons(keys, p);
      if p(keys[0]) {
        UnitTermsValueCons(Filter(keys, p), h);
      }
    }
  }

  lemma UnitTermsValueCons(keys: seq<seq<int>>, h: Assignment)
    requires |keys| > 0
    ensures Value(UnitTerms(keys), h) == h(keys[0]) + Value(UnitTerms(keys[1..]), h)
  {
    UnitTermsTail(keys);
  }

  /** A sum of variables each worth at least 1 is at least their number. */
  lemma {:induction false} UnitTermsAtLeastCount(keys: seq<seq<int>>, h: Assignment)
    requires forall k :: k in keys ==> h(k) >= 1.0
    ensures Value(UnitTerms(keys), h) >= |keys| as real
  {
    if |keys| > 0 {
      UnitTermsTail(keys);
      assert keys[0] in keys;
      UnitTermsAtLeastCount(keys[1..], h);
    }
  }

  /** Summing variables under an assignment that is 1 on the keys satisfying
      `p` and 0 elsewhere counts those keys. */
  lemma {:induction false} UnitTermsCount(keys: seq<seq<int>>, p: seq<int> -> bool, h: Assignment)
    requires forall x :: h(x) == if p(x) then 1.0 else 0.0
    ensures Value(UnitTerms(keys), h) == |Filter(keys, p)| as real
  {
    if |keys| > 0 {
      UnitTermsTail(keys);
      UnitTermsCount(keys[1..], p, h);
    }
  }
}

=== FILE: subsets.dfy ===
/** The subset space: the dictionary `xs` whose keys are every combination of
    the vertex list, of each size from 0 to n, in `itertools.combinations`
    order. Its key list is both the variable space of the two LPs and the
    index range of the entropy model's pair loop. */
module SubsetSpace {
  import opened SortedKeys

  /** `s` picks elements of `vs` at increasing positions. */
  predicate IsSubseq(s: seq<int>, vs: seq<int>)
    decreases |vs|
  {
    if |s| == 0 then true
    else if |vs| == 0 then false
    else (s[0] == vs[0] && IsSubseq(s[1..], vs[1..])) || IsSubseq(s, vs[1..])
  }

  function Binom(n: nat, k: nat): nat {
    if k == 0 then 1
    else if n == 0 then 0
    else Binom(n - 1, k - 1) + Binom(n - 1, k)
  }

  function Pow2(n: nat): (r: nat)
    ensures r >= 1
  {
    if n == 0 then 1 else 2 * Pow2(n - 1)
  }

  /** sum of Binom(n, k) for k < L */
  function SumBinom(n: nat, L: nat): nat {
    if L == 0 then 0 else SumBinom(n, L - 1) + Binom(n, L - 1)
  }

  function Prepend(x: int, ss: seq<seq<int>>): seq<seq<int>> {
    seq(|ss|, i requires 0 <= i < |ss| => [x] + ss[i])
  }

  /** `itertools.combinations(vs, k)`: all k-element picks, in its order
      (those holding the first element first). */
  function Combinations(vs: seq<int>, k: nat): seq<seq<int>>
    decreases |vs|
  {
    if k == 0 then [[]]
    else if |vs| == 0 then []
    else Prepend(vs[0], Combinations(vs[1..], k - 1)) + Combinations(vs[1..], k)
  }

  /** The keys of sizes 0 .. L-1, smallest size first. */
  function Levels(vs: seq<int>, L: nat): seq<seq<int>> {
    if L == 0 then [] else Levels(vs, L - 1) + Combinations(vs, L - 1)
  }

  /** The key list of `xs` (optimisation.py:9-12 and 58-61): one key per
      combination of each size 0..n, 2^n keys in all. */
  function Space(vs: seq<int>): (r: seq<seq<int>>)
    ensures |r| == Pow2(|vs|)
  {
    SpaceSize(|vs|);
    LevelsCount(vs, |vs| + 1);
    Levels(vs, |vs| + 1)
  }

  // ----- counting -----

  lemma {:induction false} BinomAbove(n: nat, k: nat)
    requires k > n
    ensures Binom(n, k) == 0
  {
    if n > 0 {
      BinomAbove(n - 1, k - 1);
      BinomAbove(n - 1, k);
    }
  }

  lemma {:induction false} SumBinomTail(n: nat, L: nat)
    requires L >= n + 1
    ensures SumBinom(n, L) == SumBinom(n, n + 1)
    decreases L
  {
    if L > n + 1 {
      BinomAbove(n, L - 1);
      SumBinomTail(n, L - 1);
    }
  }

  /** Pascal's rule summed over the first L + 1 sizes. */
  lemma {:induction false} SumBinomPascal(n: nat, L: nat)
    ensures SumBinom(n + 1, L + 1) == SumBinom(n, L + 1) + SumBinom(n, L)
  {
    if L > 0 {
      SumBinomPascal(n, L - 1);
    }
  }

  lemma {:induction false} SpaceSize(n: nat)
    ensures SumBinom(n, n + 1) == Pow2(n)
  {
    if n > 0 {
      SpaceSize(n - 1);
      SumBinomPascal(n - 1, n);
      SumBinomTail(n - 1, n + 1);
      SumBinomTail(n - 1, n);
    }
  }

  /** There are Binom(n, k) k-combinations of n elements. */
  lemma {:induction false} CombinationsCount(vs: seq<int>, k: nat)
    ensures |Combinations(vs, k)| == Binom(|vs|, k)
    decreases |vs|
  {
    if k > 0 && |vs| > 0 {
      CombinationsCount(vs[1..], k - 1);
      CombinationsCount(vs[1..], k);
    }
  }

  /** Below level L there are Binom(n, 0) + ... + Binom(n, L - 1) keys. */
  lemma {:induction false} LevelsCount(vs: seq<int>, L: nat)
    ensures |Levels(vs, L)| == SumBinom(|vs|, L)
  {
    if L > 0 {
      LevelsCount(vs, L - 1);
      CombinationsCount(vs, L - 1);
    }
  }

  // ----- membership -----

  lemma {:induction false} SubseqLength(s: seq<int>, vs: seq<int>)
    requires IsSubseq(s, vs)
    ensures |s| <= |vs|
    decreases |vs|
  {
    if |s| > 0 {
      if s[0] == vs[0] && IsSubseq(s[1..], vs[1..]) {
        SubseqLength(s[1..], vs[1..]);
      } else {
        SubseqLength(s, vs[1..]);
      }
    }
  }

  lemma PrependMembers(x: int, ss: seq<seq<int>>, s: seq<int>)
    ensures s in Prepend(x, ss) <==> |s| > 0 && s[0] == x && s[1..] in ss
  {
    if |s| > 0 && s[0] == x && s[1..] in ss {
      var i :| 0 <= i < |ss| && ss[i] == s[1..];
      assert Prepend(x, ss)[i] == s;
    }
  }

  /** A list is a k-combination of `vs` exactly when it is a k-element
      subsequence of it. */
  lemma {:induction false} CombinationsMembers(vs: seq<int>, k: nat, s: seq<int>)
    ensures s in Combinations(vs, k) <==> |s| == k && IsSubseq(s, vs)
    decreases |vs|
  {
    if k == 0 {
    } else if |vs| == 0 {
    } else {
      var rest := vs[1..];
      var first := Prepend(vs[0], Combinations(rest, k - 1));
      var later := Combinations(rest, k);
      assert Combinations(vs, k) == first + later;
      // membership in `later`: a pick of k from the rest
      CombinationsMembers(rest, k, s);
      var inLater := |s| == k && IsSubseq(s, rest);
      // membership in `first`: the head followed by a pick of k - 1 from the rest
      PrependMembers(vs[0], Combinations(rest, k - 1), s);
      var inFirst := |s| > 0 && s[0] == vs[0] && |s| == k && IsSubseq(s[1..], rest);
      if |s| > 0 {
        CombinationsMembers(rest, k - 1, s[1..]);
      }
      assert s in first <==> inFirst;
      assert s in later <==> inLater;
      assert |s| == k && IsSubseq(s, vs) <==> inFirst || inLater;
    }
  }

  /** Every k-combination has k elements. */
  lemma CombinationsSized(vs: seq<int>, k: nat)
    ensures forall s | s in Combinations(vs, k) :: |s| == k
  {
    forall s | s in Combinations(vs, k) ensures |s| == k {
      CombinationsMembers(vs, k, s);
    }
  }

  lemma {:induction false} LevelsMembers(vs: seq<int>, L: nat, s: seq<int>)
    ensures s in Levels(vs, L) <==> |s| < L && IsSubseq(s, vs)
  {
    if L > 0 {
      LevelsMembers(vs, L - 1, s);
      CombinationsMembers(vs, L - 1, s);
    }
  }

  /** The subset space holds exactly the subsequences of the vertex list. */
  lemma SpaceMembers(vs: seq<int>, s: seq<int>)
    ensures s in Space(vs) <==> IsSubseq(s, vs)
  {
    LevelsMembers(vs, |vs| + 1, s);
    if IsSubseq(s, vs) {
      SubseqLength(s, vs);
    }
  }

  lemma {:induction false} SubseqOfIncreasing(s: seq<int>, vs: seq<int>)
    requires Increasing(vs) && IsSubseq(s, vs)
    ensures Increasing(s)
    ensures Elems(s) <= Elems(vs)
    decreases |vs|
  {
    if |s| > 0 {
      IncreasingTail(vs);
      if s[0] == vs[0] && IsSubseq(s[1..], vs[1..]) {
        SubseqOfIncreasing(s[1..], vs[1..]);
        assert s == [s[0]] + s[1..];
        assert Elems(s) == {s[0]} + Elems(s[1..]);
        forall k | 1 <= k < |s| ensures s[0] < s[k] {
          assert s[k] in Elems(s[1..]);
          var m :| 1 <= m < |vs| && vs[m] == s[k];
        }
      } else {
        SubseqOfIncreasing(s, vs[1..]);
      }
    }
  }

  lemma {:induction false} IncreasingIsSubseq(s: seq<int>, vs: seq<int>)
    requires Increasing(vs) && Increasing(s)
    requires Elems(s) <= Elems(vs)
    ensures IsSubseq(s, vs)
    decreases |vs|
  {
    ElemsOfNonEmpty(s);
    if |s| > 0 {
      assert |vs| > 0;
      IncreasingTail(vs);
      if s[0] == vs[0] {
        IncreasingTail(s);
        IncreasingIsSubseq(s[1..], vs[1..]);
      } else {
        assert s[0] in Elems(vs[1..]);
        forall x | x in Elems(s) ensures x in Elems(vs[1..]) {
          var k :| 0 <= k < |s| && s[k] == x;
          var m :| 1 <= m < |vs| && vs[m] == s[0];
          assert vs[0] < vs[m] <= s[k];
        }
        IncreasingIsSubseq(s, vs[1..]);
      }
    }
  }

  /** When the vertex list is ascending, the keys are exactly the ascending
      tuples of vertices, so a recomputed, sorted key is always found. */
  lemma SpaceKeys(vs: seq<int>, s: seq<int>)
    requires Increasing(vs)
    ensures s in Space(vs) <==> Increasing(s) && Elems(s) <= Elems(vs)
  {
    SpaceMembers(vs, s);
    if s in Space(vs) {
      SubseqOfIncreasing(s, vs);
    }
    if Increasing(s) && Elems(s) <= Elems(vs) {
      IncreasingIsSubseq(s, vs);
    }
  }

  // ----- distinctness, first and last key -----

  lemma PrependDistinct(x: int, a: seq<seq<int>>)
    requires Distinct(a)
    ensures Distinct(Prepend(x, a))
  {
    var pa := Prepend(x, a);
    forall i, j | 0 <= i < j < |pa| ensures pa[i] != pa[j] {
      assert pa[i][1..] == a[i] && pa[j][1..] == a[j];
    }
  }

  /** Picks from the tail of an ascending list never hold its head. */
  lemma HeadNotInTailPick(vs: seq<int>, k: nat, t: seq<int>)
    requires Increasing(vs) && |vs| > 0
    requires t in Combinations(vs[1..], k)
    ensures vs[0] !in Elems(t)
  {
    IncreasingTail(vs);
    CombinationsMembers(vs[1..], k, t);
    SubseqOfIncreasing(t, vs[1..]);
  }

  /** The picks holding the head and those without it are disjoint. */
  lemma CombinationsSplitDisjoint(vs: seq<int>, k: nat)
    requires Increasing(vs) && |vs| > 0 && k > 0
    ensures forall s :: s in Prepend(vs[0], Combinations(vs[1..], k - 1)) ==> s !in Combinations(vs[1..], k)
  {
    var pa := Prepend(vs[0], Combinations(vs[1..], k - 1));
    var b := Combinations(vs[1..], k);
    forall s | s in pa ensures s !in b {
      PrependMembers(vs[0], Combinations(vs[1..], k - 1), s);
      assert s[0] in Elems(s);
      if s in b {
        HeadNotInTailPick(vs, k, s);
      }
    }
  }

  lemma {:induction false} CombinationsDistinct(vs: seq<int>, k: nat)
    requires Increasing(vs)
    ensures Distinct(Combinations(vs, k))
    decreases |vs|
  {
    if k > 0 && |vs| > 0 {
      var rest := vs[1..];
      IncreasingTail(vs);
      CombinationsDistinct(rest, k - 1);
      CombinationsDistinct(rest, k);
      PrependDistinct(vs[0], Combinations(rest, k - 1));
      CombinationsSplitDisjoint(vs, k);
      DistinctConcat(Prepend(vs[0], Combinations(rest, k - 1)), Combinations(rest, k));
    }
  }

  /** Keys of different sizes differ. */
  lemma LevelsBelowDisjoint(vs: seq<int>, L: nat)
    ensures forall i | 0 <= i < |Levels(vs, L)| :: Levels(vs, L)[i] !in Combinations(vs, L)
  {
    var lower := Levels(vs, L);
    forall i | 0 <= i < |lower| ensures lower[i] !in Combinations(vs, L) {
      LevelsMembers(vs, L, lower[i]);
      CombinationsMembers(vs, L, lower[i]);
    }
  }

  lemma {:induction false} LevelsDistinct(vs: seq<int>, L: nat)
    requires Increasing(vs)
    ensures Distinct(Levels(vs, L))
  {
    if L > 0 {
      LevelsDistinct(vs, L - 1);
      CombinationsDistinct(vs, L - 1);
      LevelsBelowDisjoint(vs, L - 1);
      DistinctConcat(Levels(vs, L - 1), Combinations(vs, L - 1));
    }
  }

  /** No key is repeated, so the dictionary `xs` keeps all 2^n of them. */
  lemma SpaceDistinct(vs: seq<int>)
    requires Increasing(vs)
    ensures Distinct(Space(vs))
  {
    LevelsDistinct(vs, |vs| + 1);
  }

  /** There is no pick of more elements than the list has. */
  lemma {:induction false} CombinationsTooMany(vs: seq<int>, k: nat)
    requires |vs| < k
    ensures Combinations(vs, k) == []
    decreases |vs|
  {
    if |vs| > 0 {
      CombinationsTooMany(vs[1..], k - 1);
      CombinationsTooMany(vs[1..], k);
      assert Prepend(vs[0], []) == [];
    }
  }

  lemma {:induction false} CombinationsOfAll(vs: seq<int>)
    ensures Combinations(vs, |vs|) == [vs]
    decreases |vs|
  {
    if |vs| > 0 {
      var rest := vs[1..];
      CombinationsTooMany(rest, |vs|);
      CombinationsOfAll(rest);
      assert [vs[0]] + rest == vs;
      assert Prepend(vs[0], [rest]) == [vs];
      assert Combinations(vs, |vs|) == Prepend(vs[0], Combinations(rest, |rest|)) + Combinations(rest, |vs|);
    }
  }

  lemma {:induction false} LevelsFirst(vs: seq<int>, L: nat)
    requires L >= 1
    ensures |Levels(vs, L)| > 0 && Levels(vs, L)[0] == []
  {
    if L > 1 {
      LevelsFirst(vs, L - 1);
    }
  }

  /** The first key is the empty tuple and the last is the whole vertex list. */
  lemma SpaceEnds(vs: seq<int>)
    ensures Space(vs)[0] == []
    ensures Space(vs)[|Space(vs)| - 1] == vs
  {
    LevelsFirst(vs, |vs| + 1);
    CombinationsOfAll(vs);
  }

  /** No entry is longer than a later one. */
  predicate SizeOrdered(ss: seq<seq<int>>) {
    forall x, y | 0 <= x < y < |ss| :: |ss[x]| <= |ss[y]|
  }

  /** The size-ordering of the keys below level L, for one pair of positions. */
  lemma {:induction false} LevelsSizeOrderedAt(vs: seq<int>, L: nat, x: int, y: int)
    requires 0 <= x < y < |Levels(vs, L)|
    ensures |Levels(vs, L)[x]| <= |Levels(vs, L)[y]|
  {
    LevelsKeyShorter(vs, L, x);
    if y < |Levels(vs, L - 1)| {
      LevelsPrefix(vs, L, x);
      LevelsPrefix(vs, L, y);
      LevelsSizeOrderedAt(vs, L - 1, x, y);
    } else {
      LevelsTopSize(vs, L, y);
    }
  }

  /** Level L keeps the keys of level L - 1 at their positions. */
  lemma LevelsPrefix(vs: seq<int>, L: nat, i: int)
    requires L > 0 && 0 <= i < |Levels(vs, L - 1)|
    ensures Levels(vs, L)[i] == Levels(vs, L - 1)[i]
  {
  }

  /** The keys level L adds have L - 1 elements. */
  lemma LevelsTopSize(vs: seq<int>, L: nat, i: int)
    requires L > 0 && |Levels(vs, L - 1)| <= i < |Levels(vs, L)|
    ensures |Levels(vs, L)[i]| == L - 1
  {
    var j := i - |Levels(vs, L - 1)|;
    assert Levels(vs, L)[i] == Combinations(vs, L - 1)[j];
    CombinationSizeAt(vs, L - 1, j);
  }

  /** Every k-combination has k elements. */
  lemma CombinationSizeAt(vs: seq<int>, k: nat, j: int)
    requires 0 <= j < |Combinations(vs, k)|
    ensures |Combinations(vs, k)[j]| == k
  {
    CombinationsMembers(vs, k, Combinations(vs, k)[j]);
  }

  /** Every key below level L has fewer than L elements. */
  lemma LevelsKeyShorter(vs: seq<int>, L: nat, i: int)
    requires 0 <= i < |Levels(vs, L)|
    ensures |Levels(vs, L)[i]| < L
  {
    LevelsMembers(vs, L, Levels(vs, L)[i]);
  }

  /** Keys come size by size: no key is longer than a later one. */
  lemma LevelsSizeOrdered(vs: seq<int>, L: nat)
    ensures SizeOrdered(Levels(vs, L))
  {
    forall x, y | 0 <= x < y < |Levels(vs, L)| ensures |Levels(vs, L)[x]| <= |Levels(vs, L)[y]| {
      LevelsSizeOrderedAt(vs, L, x, y);
    }
  }

  /** A key whose set lies inside another key's set comes before it, so the
      pair loop meets every subset ahead of its supersets. */
  lemma SubsetComesFirst(vs: seq<int>, x: int, y: int)
    requires Increasing(vs)
    requires 0 <= x < |Space(vs)| && 0 <= y < |Space(vs)| && x != y
    requires Elems(Space(vs)[x]) <= Elems(Space(vs)[y])
    ensures x < y
  {
    var keys := Space(vs);
    if y < x {
      var s := keys[x];
      var t := keys[y];
      LevelsSizeOrdered(vs, |vs| + 1);
      SpaceKeys(vs, s);
      SpaceKeys(vs, t);
      IncreasingCard(s);
      IncreasingCard(t);
      SubsetOfSameSize(Elems(s), Elems(t));
      IncreasingUnique(s, t);
      SpaceDistinct(vs);
      assert false;
    }
  }

  // ----- singleton keys -----

  predicate IsSingletonKey(k: seq<int>) {
    |k| == 1
  }

  lemma {:induction false} BinomOne(n: nat)
    ensures Binom(n, 1) == n
  {
    if n > 0 {
      BinomOne(n - 1);
    }
  }

  lemma LevelSingletons(vs: seq<int>, k: nat)
    ensures |Filter(Combinations(vs, k), IsSingletonKey)| == if k == 1 then |vs| else 0
  {
    var c := Combinations(vs, k);
    CombinationsSized(vs, k);
    if k == 1 {
      FilterAll(c, IsSingletonKey);
      CombinationsCount(vs, 1);
      BinomOne(|vs|);
    } else {
      FilterNone(c, IsSingletonKey);
    }
  }

  lemma {:induction false} LevelsSingletons(vs: seq<int>, L: nat)
    ensures |Filter(Levels(vs, L), IsSingletonKey)| == if L >= 2 then |vs| else 0
  {
    if L > 0 {
      LevelsSingletons(vs, L - 1);
      FilterConcat(Levels(vs, L - 1), Combinations(vs, L - 1), IsSingletonKey);
      LevelSingletons(vs, L - 1);
    }
  }

  /** There are exactly n singleton keys. */
  lemma CountSingletonKeys(vs: seq<int>)
    ensures |Filter(Space(vs), IsSingletonKey)| == |vs|
  {
    LevelsSingletons(vs, |vs| + 1);
    if |vs| == 0 {
      assert Levels(vs, 1) == [[]];
      assert Filter([[]], IsSingletonKey) == [];
    }
  }
}
